=== FILE: README.md ===
# PyPI repository adapter of piptools (as patched into pipenv), in Dafny

This project models `PyPIRepository` and `HashCache` from
`pipenv/patched/piptools/repositories/pypi.py`. That file is the layer between
pip-tools' resolver and pip. Given a requirement, it answers three questions:

- which published version best matches the requirement (`find_best_match`);
- what the pinned or editable requirement depends on (`get_dependencies`,
  `get_legacy_dependencies`, `get_json_dependencies`);
- which content hashes cover every artifact of a pinned version (`get_hashes`,
  `HashCache.get_hash`).

It also has a scope, `allow_all_wheels`, that lets hash auditing see the wheels of
every platform.

The model is functional. A `Repo` record holds what an adapter instance
accumulates:

- its index URLs, its `use_json` flag and the current wheel policy;
- the candidate cache, the dependency cache and the JSON-dependency cache;
- the persistent hash store.

Every operation takes a `Repo` and returns the next `Repo` together with its
result or the error it raises (`Step`). pip, `packaging`, `hashlib`, the network
and the build machinery are not re-implemented. They appear as function-valued
fields of an `Env` record (`repository.dfy` lists them), and the proofs hold for
every choice of them.

Modules:

| file | module | models |
|---|---|---|
| `wrappers.dfy` | `Wrappers` | `Option` / `Result` |
| `text.dfy` | `Text` | the `str` operations the code uses |
| `types.dfy` | `Types` | locations, candidates, requirements, the extractor's report, errors |
| `repository.dfy` | `Repository` | adapter state, collaborators, the constructor's index URL rule |
| `hash_cache.dfy` | `HashCache` | `HashCache.get_hash`, `_get_file_hash` |
| `target_python.dfy` | `TargetPython` | the interpreter version `find_best_match` tests against |
| `candidates.dfy` | `Candidates` | `find_all_candidates`, `find_best_match` |
| `setup_requires.dfy` | `SetupRequires` | the `requires.txt` section conversion in `get_legacy_dependencies` |
| `dependencies.dfy` | `Dependencies` | `get_legacy_dependencies`, `get_json_dependencies`, `get_dependencies` |
| `hashes.dfy` | `Hashes` | `get_hashes` |
| `wheel_override.dfy` | `WheelOverride` | `allow_all_wheels` |

Two details of the source shape the model:

- `NoCandidateFound` carries the candidate list after the `requires_python`
  filter, not the unfiltered list (pypi.py:168-172 and 183-184).
- The JSON path caches an empty list when the release's metadata has no
  `requires_dist` key (pypi.py:220-223 and 230-232). Every other failure yields
  an empty set that is not cached (pypi.py:235-236).

## Model

| member | source | states |
|---|---|---|
| `HashCache.FileHash` | pipenv/patched/piptools/repositories/pypi.py:77-82 | The artifact is read in non-empty chunks of at most 8096 bytes until an empty read. The chunks join back to exactly the artifact's bytes. The result is `sha256:` followed by the digest of all those bytes. |
| `HashCache.FormatHashRoundTrip` | pipenv/patched/piptools/repositories/pypi.py:82 | Splitting a formatted hash at its first colon gives back `sha256` and the digest unchanged. |
| `HashCache.GetHash` | pipenv/patched/piptools/repositories/pypi.py:63-75 | Succeeds exactly when the location resolves: to a non-empty stored entry, or else to a fresh computation. The artifact is read only when no entry is available. A location with a hash fragment leaves the store holding the answer under its full URL. A location without one leaves the store untouched. |
| `HashCache.ComputeIgnoresFragment` | pipenv/patched/piptools/repositories/pypi.py:445 | The artifact is opened at its URL without the fragment. Two locations that differ only after `#` compute the same hash as the bare URL does. |
| `HashCache.GetHashKeepsForm` | pipenv/patched/piptools/repositories/pypi.py:63-75 | If every stored entry has the form `sha256:hexdigest`, then so does every answer, whether read from the store or computed fresh. Every entry of the store afterwards keeps that form. |
| `HashCache.GetHashTwice` | pipenv/patched/piptools/repositories/pypi.py:66-75 | For a location with a hash fragment, a second request returns the first answer from the store. It does not fetch and does not change the store. |
| `HashCache.FragmentlessIgnoresStore` | pipenv/patched/piptools/repositories/pypi.py:64-75 | For a location without a hash fragment, every request fetches, the store stays as it was, and the answer does not depend on the store's contents. |
| `HashCache.GetHashPreservesResolution` | pipenv/patched/piptools/repositories/pypi.py:66-74 | After a request, every location resolves to the same hash as before it. |
| `Repository.IndexUrls` | pipenv/patched/piptools/repositories/pypi.py:100-102 | With `no_index` there are no index URLs. Otherwise the main index comes first, followed by the extra indexes in order. |
| `Repository.DefaultIndexConfigured` | pipenv/patched/piptools/repositories/pypi.py:100-102 | PyPI's simple index is among the finder's URLs exactly when `no_index` is off and PyPI is the main or an extra index. |
| `Repository.NewRepository` | pipenv/patched/piptools/repositories/pypi.py:113-126 | A new adapter starts with empty candidate, dependency and JSON caches and the platform wheel policy. It keeps what the persistent hash store already holds. |
| `Candidates.FindAllCandidates` | pipenv/patched/piptools/repositories/pypi.py:153-157 | A cached name returns its cached list without asking the finder and changes nothing. An uncached name asks the finder under the current wheel policy and records the answer. |
| `Candidates.FindAllCandidatesMemoised` | pipenv/patched/piptools/repositories/pypi.py:153-157 | A second lookup of a name returns the first list without asking the finder. A lookup leaves every other name's cache entry as it was. |
| `Candidates.PythonCompatible` | pipenv/patched/piptools/repositories/pypi.py:168-172 | Keeps exactly the candidates whose `requires_python` is empty or contains the target interpreter version. |
| `Candidates.ByVersion` | pipenv/patched/piptools/repositories/pypi.py:174 | The table has an entry for every listed version. Each entry is a listed candidate of that version. |
| `Candidates.LookupAll` | pipenv/patched/piptools/repositories/pypi.py:182 | Succeeds exactly when every matching version has a representative, and returns them in order. Otherwise it raises `KeyError` on a missing version. |
| `Candidates.MaxByIsMaximal` | pipenv/patched/piptools/repositories/pypi.py:185 | For a ranking that is irreflexive and transitive, `max` by sort key returns a candidate that no scanned candidate outranks. |
| `Candidates.SelectCandidate` | pipenv/patched/piptools/repositories/pypi.py:174-185 | A winner is a usable candidate of a matching version and is that version's representative. `NoCandidateFound` (with the usable candidates) is raised exactly when no version matches. When the matching versions come from the usable ones, selection succeeds exactly when some version matches. |
| `Candidates.SelectCandidateIsBest` | pipenv/patched/piptools/repositories/pypi.py:182-185 | No representative of a matching version outranks the winner. |
| `Candidates.FindBestMatch` | pipenv/patched/piptools/repositories/pypi.py:159-194 | An editable requirement comes back unchanged and nothing is looked up. Otherwise the result is a fresh non-editable requirement with a single `==` pin that keeps the original extras, markers and constraint flag. `NoCandidateFound` carries the usable candidates. |
| `Candidates.FindBestMatchIsBest` | pipenv/patched/piptools/repositories/pypi.py:167-190 | For a non-editable requirement, the result pins a candidate with four properties. The index lists it for the name. Its `requires_python` admits the target interpreter. The specifier, or the all-match fallback after a `TypeError`, admits its version. No representative of an admitted version outranks it. |
| `Candidates.FindBestMatchFailsOnlyWhenNothingMatches` | pipenv/patched/piptools/repositories/pypi.py:175-184 | When the specifier filter returns versions drawn from its input, the lookup fails exactly when no version matches, and then only with `NoCandidateFound`. |
| `TargetPython.TargetVersion` | pipenv/patched/piptools/repositories/pypi.py:167 | `PIP_PYTHON_VERSION` wins whenever it is set. Otherwise the target reads back as exactly the running interpreter's `major.minor.micro`. |
| `TargetPython.AsWrittenIsNotAVersion` | pipenv/patched/piptools/repositories/pypi.py:167 | The fallback as written, `str(sys.version_info[:3])`, is not a release segment and cannot begin any PEP 440 version. |
| `TargetPython.AsWrittenExample` | pipenv/patched/piptools/repositories/pypi.py:167 | Under Python 3.6.5 the fallback as written is the text `(3, 6, 5)`. |
| `TargetPython.DefaultTargetRoundTrip` | pipenv/patched/piptools/repositories/pypi.py:167 | The corrected fallback parses back to exactly the interpreter's three version numbers. |
| `SetupRequires.AppendSetupRequires` | pipenv/patched/piptools/repositories/pypi.py:345-365 | The extractor's list stays in front, unchanged. The appended lines are exactly the declarative reading of every section (`ReferenceSections`), in order. No appended line contains a colon. |
| `SetupRequires.ParseSectionMatchesReference` | pipenv/patched/piptools/repositories/pypi.py:346-365 | Reading a section line by line gives the same lines as a separate definition that looks back from each line. The active marker is the nearest preceding `[x:y]` line, else the section name. Lines are kept when the nearest bracketed line is a `[x:y]` header, or, before any such line, when the section name has that form. |
| `SetupRequires.ParseSectionsMatchesReference` | pipenv/patched/piptools/repositories/pypi.py:346-365 | Over a whole list of sections, the line-by-line conversion equals the declarative reading of each section, concatenated in order. |
| `SetupRequires.ReferenceLine` | pipenv/patched/piptools/repositories/pypi.py:350-365 | A line holding a colon, and any bracketed line, produces nothing. A plain line does not change the state, and it produces an entry exactly when lines are being kept and `from_line` accepts the entry. |
| `SetupRequires.SectionsReadIndependently` | pipenv/patched/piptools/repositories/pypi.py:346-348 | The state resets at each section: converting a list of sections is converting each one on its own, with the results concatenated in order. |
| `SetupRequires.NoColonInOutput` | pipenv/patched/piptools/repositories/pypi.py:359-362 | Every converted line has its colons turned into semicolons. |
| `Dependencies.DownloadDirInputs` | pipenv/patched/piptools/repositories/pypi.py:262-274 | The file system is consulted only for an editable requirement with a source directory. A locally present editable source gets no download directory whatever its link. A non-editable requirement without a version-control link always gets the shared download directory. |
| `Dependencies.CollapseIgnoresSpacing` | pipenv/patched/piptools/repositories/pypi.py:366-370 | The collapsed dependency starts with the requirement's text. Its `python_version` marker depends on `requires_python` only up to spaces. |
| `Dependencies.MarkerIgnoresSpaces` | pipenv/patched/piptools/repositories/pypi.py:368 | Inserting a space anywhere in `requires_python` leaves the marker unchanged. |
| `Dependencies.LegacyDependencies` | pipenv/patched/piptools/repositories/pypi.py:252-374 | A requirement that is neither editable nor pinned raises `TypeError` and changes nothing. A cached requirement returns its cached list. A success leaves the answer cached under the requirement. Only the dependency cache changes, and it only grows. A failure changes nothing. |
| `Dependencies.LegacyDependenciesFresh` | pipenv/patched/piptools/repositories/pypi.py:261-372 | On a cache miss an extractor failure propagates. A reported `requires_python` yields exactly one dependency: the requirement plus `; python_version=="…"`. Otherwise the result is the extracted list, followed by the converted `requires.txt` lines when the requirement is editable. |
| `Dependencies.LegacyDependenciesMemoised` | pipenv/patched/piptools/repositories/pypi.py:261-374 | After one success, a second call returns the same answer and state without consulting the extractor. This holds whatever the extractor would now report. |
| `Dependencies.LegacyDependenciesFrame` | pipenv/patched/piptools/repositories/pypi.py:252-374 | The legacy path neither reads nor writes the JSON-dependency cache. |
| `Dependencies.ReleasesMatching` | pipenv/patched/piptools/repositories/pypi.py:208-211 | Keeps exactly the releases `r` for which `==r` is the specifier's text. |
| `Dependencies.KeepNonExtra` | pipenv/patched/piptools/repositories/pypi.py:225-228 | Fails exactly when some entry cannot be parsed. Otherwise it keeps exactly the entries whose markers do not mention `extra`. |
| `Dependencies.JsonDependencies` | pipenv/patched/piptools/repositories/pypi.py:196-236 | An unpinned requirement raises `TypeError`. A pinned one always succeeds and returns the cached list when there is one. Only the JSON cache changes, and it only grows. |
| `Dependencies.JsonDependenciesMatchRule` | pipenv/patched/piptools/repositories/pypi.py:201-236 | A failed lookup answers with nothing and is not cached. A lookup that completes caches its list, and the answer is that list's set. A non-empty answer requires three things. PyPI must be configured. Some release's `==r` must equal the specifier's text. The answer holds only that release's `requires_dist` entries whose markers do not mention `extra`. |
| `Dependencies.JsonDependenciesReportsRelease` | pipenv/patched/piptools/repositories/pypi.py:201-234 | Suppose PyPI is configured, a release matches the pin, and that release declares `requires_dist` with every entry parseable. Then the answer is exactly the entries whose markers do not mention `extra`, and the list is cached. |
| `Dependencies.NoIndexMeansNoJson` | pipenv/patched/piptools/repositories/pypi.py:201-203 | On an adapter built with `no_index`, the JSON path never reports a dependency. |
| `Dependencies.Dependencies` | pipenv/patched/piptools/repositories/pypi.py:238-250 | An unpinned non-editable requirement raises `TypeError` and touches nothing. Without `use_json` the answer is the legacy path's answer. |
| `Dependencies.DependenciesExtendLegacy` | pipenv/patched/piptools/repositories/pypi.py:238-250 | The call succeeds exactly when the legacy path does, and fails with its error. On success it returns exactly the JSON stage's set joined with the legacy answer. |
| `Hashes.Group` | pipenv/patched/piptools/repositories/pypi.py:393-396 | Holds exactly the listed candidates of the given version, each once. |
| `Hashes.HashAll` | pipenv/patched/piptools/repositories/pypi.py:398-401 | A complete run yields at most one hash per candidate. A run stops only on an artifact that cannot be opened. |
| `Hashes.HashAllResolves` | pipenv/patched/piptools/repositories/pypi.py:398-401 | The run completes exactly when every candidate's hash resolves against the starting store. It then yields exactly those hashes, so the order of the requests does not matter. |
| `Hashes.HashAllKeepsForm` | pipenv/patched/piptools/repositories/pypi.py:398-401 | Starting from a store of `sha256:hexdigest` entries, gathering leaves the store in that form and yields only hashes of that form. |
| `Hashes.HashesAreFormatted` | pipenv/patched/piptools/repositories/pypi.py:376-401 | Starting from a store of `sha256:hexdigest` entries, every hash `get_hashes` reports has that form, and so does every store entry afterwards. |
| `Hashes.Hashes` | pipenv/patched/piptools/repositories/pypi.py:376-401 | An editable requirement yields the empty set. An unpinned one raises `TypeError` before any lookup. Only the candidate cache and the hash store change. |
| `Hashes.HashesOfFirstMatchingVersion` | pipenv/patched/piptools/repositories/pypi.py:389-401 | On success, the specifier matched some version. The answer is exactly the set of resolved hashes of the candidates listed at the first matching version. It has at most one hash per such candidate. |
| `Hashes.UnlistedVersionRaises` | pipenv/patched/piptools/repositories/pypi.py:393-396 | When the first matching version is one that no candidate lists, the version table has no entry for it. The lookup raises `KeyError`, and nothing is fetched or stored. |
| `Hashes.SubsetFilterNeverUnlisted` | pipenv/patched/piptools/repositories/pypi.py:392-396 | When the specifier filter answers only versions from its input, `get_hashes` never raises that `KeyError`. |
| `WheelOverride.AllowAllWheels` | pipenv/patched/piptools/repositories/pypi.py:403-432 | The body runs with every wheel allowed and an empty candidate cache. Afterwards the prior policy and candidate cache are back, whether the body succeeded or raised. The body's other effects and its result are kept. |
| `WheelOverride.HashesUnderOverride` | pipenv/patched/piptools/repositories/pypi.py:403-432 | `get_hashes` inside the scope asks the finder afresh for the all-platform candidate list. The caller's candidate cache and policy are untouched afterwards. |
| `WheelOverride.NestedScopesRestore` | pipenv/patched/piptools/repositories/pypi.py:419-432 | When one scope is nested in another, leaving both restores the original policy and candidate cache. |

## Findings

| source | as written | input that shows it | evidently intended | confidence | as-written member | corrected member |
|---|---|---|---|---|---|---|
| pipenv/patched/piptools/repositories/pypi.py:167 | With `PIP_PYTHON_VERSION` unset, the target version is `str(sys.version_info[:3])`. That is the display of a tuple. | Python 3.6.5 with `PIP_PYTHON_VERSION` unset gives the target `(3, 6, 5)`. `packaging` parses this only as a legacy version, which sorts below every PEP 440 version. A candidate with `requires_python >=3.4` would then be dropped. | `3.6.5`: the dotted triple | high on the string, medium on what `packaging` then does; not executed | `TargetPython.AsWrittenIsNotAVersion` (about `TargetPython.DefaultTargetAsWritten`) | `TargetPython.DefaultTargetRoundTrip` (about `TargetPython.DefaultTarget`, which `TargetPython.TargetVersion` and `Candidates.FindBestMatch` use) |

## Left out

- Opening artifacts, `open_local_or_remote_file`, HTTP requests and JSON decoding are I/O. A fetch is a function from URL to bytes, where `None` stands for a directory or an unreachable file. The PyPI JSON API is represented by `releases` and `requiresDist`.
- `hashlib` internals are left out. The digest is a function of the concatenated bytes fed to it, which is how incremental `update` calls behave.
- `FAVORITE_HASH` is taken as `sha256`, pip's value. `_compat` is not part of this model.
- These are abstract functions in `Env`: `SpecifierSet` containment and filtering, `parse_version`, the finder's `_candidate_sort_key`, `InstallRequirement.from_line`, `repr` of markers, and `str(ireq.req)`. If `SpecifierSet(c.requires_python)` raises on a malformed `requires_python`, that error is not modelled.
- Versions are strings. Two differently spelled but equal PEP 440 versions, such as `1.0` and `1.0.0`, count as different keys in the per-version table.
- `lookup_table` is in `utils.py`, which is not part of this model. With `unique=True` it is modelled as a dict built from the list, so the last candidate of a version wins. Without it, it returns a plain dict of sets. This is modelled as the distinct candidates of a version, in order of first listing. A version nobody lists has no entry, and looking it up raises `KeyError`. A Python set's iteration order is arbitrary. `Hashes.HashAllResolves` shows that neither whether `get_hashes` succeeds nor the set it returns on success depends on that order.
- `is_pinned_requirement` is in `utils.py`. `Types.IsPinned` restates its rule: not editable, and exactly one `==`/`===` clause without `.*`.
- `make_install_requirement` is in `utils.py`. The pinned requirement is built structurally (`Types.PinnedFrom`), not as a line for `from_line`.
- Caches are keyed by requirement value. Python keys them by `InstallRequirement` object identity, so an equal but distinct object misses the cache there.
- `NoCandidateFound` does not carry the finder. It is only used to render a message.
- The pip invocation at lines 278-323 and `ireq.get_dist()` at lines 329-343 are one opaque extractor. It returns the dependency list, `requires_python`, the `requires.txt` sections and the re-read requirement text, or fails. For an editable requirement the source also rewrites `ireq.version`, `ireq.project_name` and `ireq.req` in place (lines 339-341); the model uses the re-read text only for the collapsed line and does not return the updated requirement to the caller. The model always treats the extractor's result as a list. With pip 10 or later on Python 3 it is a dictionary view, and the list concatenation at line 362 raises inside its `try`, so no `requires.txt` line would be added there.
- `Candidates.FindBestMatchIsBest` and `Candidates.MaxByIsMaximal` assume the sort-key comparison is irreflexive and transitive (`StrictRanking`). Python's tuple comparison has these properties. The source relies on them implicitly.
- Directory work is filesystem plumbing with no decision logic: `freshen_build_caches`, `build_dir`/`source_dir`, `clear_caches`, `os.makedirs` of the download directories, `cleanup_files`, `TemporaryDirectory`, `WheelCache`, and `HashCache.__init__`'s default directory.
- `allow_all_wheels` patches `Wheel` process-wide, and that is unsafe under concurrency. The model makes the policy part of the state and passes it to the finder and to the ranking.
- The patched `Wheel.supported` (always true) and `Wheel.support_index_min` (always 0) are not modelled. Wheel compatibility and sort priority are inside the abstract finder and ranking, which receive the policy. No contract states that under the override every wheel is accepted with equal priority.
- A `requires_dist` of JSON `null` makes the iteration at line 225 raise inside the `try`. The model folds this into the same uncached empty answer as any other JSON failure.
- `Dependencies.Dependencies`: answers are sets of requirement lines. In the source they are sets of `InstallRequirement` objects, which compare by identity. A JSON entry and a legacy entry with the same text therefore stay two members there but merge into one here. The same applies to repeated lines within one list.
- `Hashes.HashAll`: suppose an artifact cannot be opened. Which unopenable artifact is reported, and which store entries were already written, then depend on Python's set iteration order. The model fixes that order to first listing.
- The persistent hash store is assumed to hold only `sha256:hexdigest` entries when it is loaded (`HashCache.FormattedStore`). Entries written by other tools are not checked.

=== FILE: candidates.dfy ===
/** Candidate lookup and best-match selection.

    `find_all_candidates` asks the finder once per project name and
    memoises the answer. `find_best_match` drops candidates whose
    `requires_python` excludes the target interpreter, keeps one candidate
    per version, filters the versions by the requirement's specifier (all
    versions match when the filter raises `TypeError`), and pins the
    highest-ranked survivor under the finder's sort key. */
module Candidates {
  import opened Wrappers
  import opened Types
  import opened Repository
  import TargetPython

  /** The candidates for a name, the state afterwards, and whether the
      finder was asked. */
  datatype CandidateLookup = CandidateLookup(repo: Repo, candidates: seq<Candidate>, queried: bool)

  /** `find_all_candidates`. */
  function FindAllCandidates(repo: Repo, env: Env, name: string): (r: CandidateLookup)
    ensures name in repo.candidates ==> r == CandidateLookup(repo, repo.candidates[name], false)
    ensures name !in repo.candidates ==> r.queried && r.candidates == env.finder(repo.policy, name)
    ensures r.repo == repo.(candidates := repo.candidates[name := r.candidates])
  {
    if name in repo.candidates then
      assert repo.candidates[name := repo.candidates[name]] == repo.candidates;
      CandidateLookup(repo, repo.candidates[name], false)
    else
      var found := env.finder(repo.policy, name);
      CandidateLookup(repo.(candidates := repo.candidates[name := found]), found, true)
  }

  /** The finder is asked at most once per name: a second lookup returns
      the first one's list from the cache and changes nothing, and a lookup
      leaves every other name's entry as it was. */
  lemma FindAllCandidatesMemoised(repo: Repo, env: Env, name: string, other: string)
    requires other != name
    ensures var first := FindAllCandidates(repo, env, name);
            FindAllCandidates(first.repo, env, name) == CandidateLookup(first.repo, first.candidates, false)
    ensures var first := FindAllCandidates(repo, env, name);
            (other in first.repo.candidates <==> other in repo.candidates) &&
            (other in repo.candidates ==> first.repo.candidates[other] == repo.candidates[other])
  {
  }

  /** A candidate is usable under the target interpreter when it declares
      no `requires_python` or its `requires_python` contains the target. */
  predicate PythonOk(c: Candidate, accepts: (string, string) -> bool, target: string) {
    c.requiresPython == "" || accepts(c.requiresPython, target)
  }

  /** The candidates usable under the target interpreter, in index order. */
  function PythonCompatible(cs: seq<Candidate>, accepts: (string, string) -> bool, target: string): (r: seq<Candidate>)
    ensures forall c :: c in r <==> c in cs && PythonOk(c, accepts, target)
    ensures |r| <= |cs|
  {
    if cs == [] then []
    else (if PythonOk(cs[0], accepts, target) then [cs[0]] else []) + PythonCompatible(cs[1..], accepts, target)
  }

  /** The version of each candidate, in order. */
  function VersionsOf(cs: seq<Candidate>): (vs: seq<string>)
    ensures |vs| == |cs| && forall k :: 0 <= k < |cs| ==> vs[k] == cs[k].version
  {
    seq(|cs|, k requires 0 <= k < |cs| => cs[k].version)
  }

  /** `lookup_table(cs, key=version, unique=True)`: one representative per
      version (a later candidate of the same version replaces an earlier
      one, as in a dict built from the list). */
  function ByVersion(cs: seq<Candidate>): (table: map<string, Candidate>)
    ensures forall k :: 0 <= k < |cs| ==> cs[k].version in table
    ensures forall v :: v in table ==> table[v] in cs && table[v].version == v
  {
    if cs == [] then map[]
    else
      var last := cs[|cs| - 1];
      var table := ByVersion(cs[..|cs| - 1])[last.version := last];
      assert forall k :: 0 <= k < |cs| - 1 ==> cs[k] == cs[..|cs| - 1][k];
      table
  }

  /** The versions the requirement's specifier admits: the filter's answer,
      or every version when the filter raises `TypeError`. */
  function MatchingVersions(ireq: Requirement, versions: seq<string>, prereleases: Option<bool>,
                            filter: (seq<Clause>, seq<string>, Option<bool>) -> Option<seq<string>>): seq<string>
  {
    match filter(ireq.specifier, versions, prereleases)
    case Some(matching) => matching
    case None => versions
  }

  /** `[table[v] for v in versions]`, raising `KeyError` at the first
      version the table lacks. */
  function LookupAll(table: map<string, Candidate>, versions: seq<string>): (r: Result<seq<Candidate>, Error>)
    ensures r.Success? <==> forall k :: 0 <= k < |versions| ==> versions[k] in table
    ensures r.Success? ==> |r.value| == |versions| && forall k :: 0 <= k < |versions| ==> r.value[k] == table[versions[k]]
    ensures r.Failure? ==> r.error.VersionNotInTable? && r.error.version in versions && r.error.version !in table
  {
    if versions == [] then Success([])
    else if versions[0] !in table then Failure(VersionNotInTable(versions[0]))
    else match LookupAll(table, versions[1..])
      case Failure(e) => Failure(e)
      case Success(rest) => Success([table[versions[0]]] + rest)
  }

  /** The ranking relation behaves as "strictly below" on sort keys does:
      nothing ranks below itself, and ranking below is transitive. */
  ghost predicate StrictRanking(ranksBelow: (WheelPolicy, Candidate, Candidate) -> bool) {
    && (forall p, a :: !ranksBelow(p, a, a))
    && (forall p, a, b, c :: ranksBelow(p, a, b) && ranksBelow(p, b, c) ==> ranksBelow(p, a, c))
  }

  /** `max(candidates, key=sort_key)`, scanning left to right from `best`
      and moving on only to a candidate that ranks strictly higher. */
  function MaxBy(ranksBelow: (WheelPolicy, Candidate, Candidate) -> bool, policy: WheelPolicy,
                 best: Candidate, rest: seq<Candidate>): (r: Candidate)
    ensures r == best || r in rest
    decreases |rest|
  {
    if rest == [] then best
    else MaxBy(ranksBelow, policy, if ranksBelow(policy, best, rest[0]) then rest[0] else best, rest[1..])
  }

  /** The scan's answer is `best` or ranks above it, and nothing it scanned
      ranks above the answer. */
  lemma {:induction false} MaxByIsMaximal(ranksBelow: (WheelPolicy, Candidate, Candidate) -> bool, policy: WheelPolicy,
                                          best: Candidate, rest: seq<Candidate>)
    requires StrictRanking(ranksBelow)
    ensures var r := MaxBy(ranksBelow, policy, best, rest);
            (r == best || ranksBelow(policy, best, r)) && forall c :: c in rest ==> !ranksBelow(policy, r, c)
    decreases |rest|
  {
    if rest != [] {
      var next := if ranksBelow(policy, best, rest[0]) then rest[0] else best;
      MaxByIsMaximal(ranksBelow, policy, next, rest[1..]);
      var r := MaxBy(ranksBelow, policy, next, rest[1..]);
      assert r == MaxBy(ranksBelow, policy, best, rest);
      forall c | c in rest
        ensures !ranksBelow(policy, r, c)
      {
        if c != rest[0] {
          assert c in rest[1..];
        }
      }
    }
  }

  /** The candidate the selection settles on, or the error it raises:
      `KeyError` for a matching version with no representative,
      `NoCandidateFound` (carrying the usable candidates) when nothing
      matches, otherwise the highest-ranked representative of a matching
      version. */
  function SelectCandidate(ireq: Requirement, eligible: seq<Candidate>, matching: seq<string>,
                           ranksBelow: (WheelPolicy, Candidate, Candidate) -> bool, policy: WheelPolicy): (r: Result<Candidate, Error>)
    ensures r.Success? ==> r.value in eligible && r.value.version in matching && ByVersion(eligible)[r.value.version] == r.value
    ensures r.Failure? && r.error == NoCandidateFound(ireq, eligible) <==> matching == []
    ensures (forall v :: v in matching ==> v in VersionsOf(eligible)) ==> (r.Success? <==> matching != [])
  {
    var table := ByVersion(eligible);
    match LookupAll(table, matching)
    case Failure(e) => Failure(e)
    case Success(found) =>
      if found == [] then Failure(NoCandidateFound(ireq, eligible))
      else
        var w := MaxBy(ranksBelow, policy, found[0], found[1..]);
        assert w in found;
        Success(w)
  }

  /** The selection's winner outranks no representative of a matching
      version from below. */
  lemma SelectCandidateIsBest(ireq: Requirement, eligible: seq<Candidate>, matching: seq<string>,
                              ranksBelow: (WheelPolicy, Candidate, Candidate) -> bool, policy: WheelPolicy)
    requires StrictRanking(ranksBelow)
    ensures var r := SelectCandidate(ireq, eligible, matching, ranksBelow, policy);
            var table := ByVersion(eligible);
            r.Success? ==> forall v :: v in matching ==> v in table && !ranksBelow(policy, r.value, table[v])
  {
    var table := ByVersion(eligible);
    var lookup := LookupAll(table, matching);
    if lookup.Success? && lookup.value != [] {
      var found := lookup.value;
      MaxByIsMaximal(ranksBelow, policy, found[0], found[1..]);
      var w := MaxBy(ranksBelow, policy, found[0], found[1..]);
      forall v | v in matching
        ensures v in table && !ranksBelow(policy, w, table[v])
      {
        var k :| 0 <= k < |matching| && matching[k] == v;
        assert found[k] == table[v];
        if k > 0 {
          assert found[k] in found[1..];
        }
      }
    }
  }

  /** The candidates `find_best_match` chooses among: those the index lists
      for the name whose `requires_python` admits the target interpreter. */
  function Eligible(repo: Repo, env: Env, ireq: Requirement): seq<Candidate> {
    var target := TargetPython.TargetVersion(env.pipPythonVersion, env.interpreter);
    PythonCompatible(FindAllCandidates(repo, env, ireq.name).candidates, env.pythonAccepts, target)
  }

  /** `find_best_match`. */
  function FindBestMatch(repo: Repo, env: Env, ireq: Requirement, prereleases: Option<bool>): (out: Step<Requirement>)
    ensures ireq.editable ==> out == Step(repo, Success(ireq))
    ensures !ireq.editable ==> out.repo == FindAllCandidates(repo, env, ireq.name).repo
    ensures !ireq.editable && out.result.Success? ==>
              var r := out.result.value;
              && !r.editable && |r.specifier| == 1 && r.specifier[0].op == "=="
              && r.extras == ireq.extras && r.markers == ireq.markers && r.constraint == ireq.constraint
    ensures !ireq.editable && out.result.Failure? && out.result.error.NoCandidateFound? ==>
              out.result.error == NoCandidateFound(ireq, Eligible(repo, env, ireq))
  {
    if ireq.editable then Step(repo, Success(ireq))
    else
      var lookup := FindAllCandidates(repo, env, ireq.name);
      var eligible := Eligible(repo, env, ireq);
      var matching := MatchingVersions(ireq, VersionsOf(eligible), prereleases, env.filter);
      match SelectCandidate(ireq, eligible, matching, env.ranksBelow, repo.policy)
      case Failure(e) => Step(lookup.repo, Failure(e))
      case Success(w) => Step(lookup.repo, Success(PinnedFrom(w, ireq)))
  }

  /** What a successful `find_best_match` on a non-editable requirement
      returns: the pin of some candidate that is listed for the name, whose
      `requires_python` admits the target interpreter, whose version the
      specifier admits, and that no representative of an admitted version
      outranks. */
  lemma FindBestMatchIsBest(repo: Repo, env: Env, ireq: Requirement, prereleases: Option<bool>)
    requires !ireq.editable
    requires StrictRanking(env.ranksBelow)
    ensures var out := FindBestMatch(repo, env, ireq, prereleases);
            var all := FindAllCandidates(repo, env, ireq.name).candidates;
            var target := TargetPython.TargetVersion(env.pipPythonVersion, env.interpreter);
            var eligible := Eligible(repo, env, ireq);
            var matching := MatchingVersions(ireq, VersionsOf(eligible), prereleases, env.filter);
            var table := ByVersion(eligible);
            out.result.Success? ==>
              exists w :: && w in all
                          && PythonOk(w, env.pythonAccepts, target)
                          && w.version in matching
                          && out.result.value == PinnedFrom(w, ireq)
                          && forall v :: v in matching ==> v in table && !env.ranksBelow(repo.policy, w, table[v])
  {
    var eligible := Eligible(repo, env, ireq);
    var matching := MatchingVersions(ireq, VersionsOf(eligible), prereleases, env.filter);
    var sel := SelectCandidate(ireq, eligible, matching, env.ranksBelow, repo.policy);
    SelectCandidateIsBest(ireq, eligible, matching, env.ranksBelow, repo.policy);
    if sel.Success? {
      var w := sel.value;
      assert w in eligible;
    }
  }

  /** When the specifier filter answers with versions drawn from those it
      was given (as `SpecifierSet.filter` does), a non-editable lookup fails
      only with `NoCandidateFound`, and exactly when no version matches. */
  lemma FindBestMatchFailsOnlyWhenNothingMatches(repo: Repo, env: Env, ireq: Requirement, prereleases: Option<bool>)
    requires !ireq.editable
    requires var versions := VersionsOf(Eligible(repo, env, ireq));
             var answer := env.filter(ireq.specifier, versions, prereleases);
             answer.Some? ==> forall v :: v in answer.value ==> v in versions
    ensures var out := FindBestMatch(repo, env, ireq, prereleases);
            var matching := MatchingVersions(ireq, VersionsOf(Eligible(repo, env, ireq)), prereleases, env.filter);
            (out.result.Failure? <==> matching == []) &&
            (out.result.Failure? ==> out.result.error == NoCandidateFound(ireq, Eligible(repo, env, ireq)))
  {
  }
}

=== FILE: dependencies.dfy ===
/** Dependency lookup for a pinned or editable requirement.

    The authoritative (legacy) path runs the metadata extractor once per
    requirement and memoises its answer; the optional JSON path asks the
    PyPI JSON API for the pinned release's `requires_dist`, swallowing every
    failure. `get_dependencies` returns the union of the two. */
module Dependencies {
  import opened Wrappers
  import opened Types
  import opened Repository
  import Text
  import SetupRequires

  /** A locally available editable source: editable, with a non-empty source
      directory that exists. */
  predicate IsLocalEditable(ireq: Requirement, pathExists: string -> bool) {
    ireq.editable && ireq.sourceDir != "" && pathExists(ireq.sourceDir)
  }

  /** A version-control source: the requirement has a link that is not an
      artifact. */
  predicate IsVcsSource(ireq: Requirement) {
    ireq.link.Some? && !ireq.link.value.isArtifact
  }

  /** The download directory handed to the extractor: none for a local
      editable source (so its working tree is not archived) and none for a
      version-control source (so its checkout metadata survives); the shared
      download directory otherwise. */
  function ChooseDownloadDir(ireq: Requirement, pathExists: string -> bool): DownloadDir {
    if IsLocalEditable(ireq, pathExists) then NoDownloadDir
    else if IsVcsSource(ireq) then NoDownloadDir
    else SharedDownloadDir
  }

  /** What the download-directory choice looks at: the file system only for
      an editable requirement with a source directory, the link never for a
      locally present editable source; and a non-editable requirement
      without a version-control link always gets the shared directory. */
  lemma DownloadDirInputs(ireq: Requirement, pathExists: string -> bool, other: string -> bool, link: Option<Link>)
    ensures !ireq.editable || ireq.sourceDir == "" ==> ChooseDownloadDir(ireq, pathExists) == ChooseDownloadDir(ireq, other)
    ensures ireq.editable && ireq.sourceDir != "" && pathExists(ireq.sourceDir) ==>
              ChooseDownloadDir(ireq.(link := link), pathExists) == NoDownloadDir
    ensures !ireq.editable && (ireq.link.None? || ireq.link.value.isArtifact) ==>
              ChooseDownloadDir(ireq, pathExists) == SharedDownloadDir
  {
  }

  /** The single dependency that stands for a package restricted as a whole
      to some interpreter versions: the requirement itself with a
      `python_version=="..."` marker holding the `requires_python` text with
      its spaces removed. */
  function CollapseRequiresPython(requirementText: string, requiresPython: string): string {
    requirementText + RequiresPythonMarker(requiresPython)
  }

  /** `'; python_version=="<requires_python without spaces>"'`. */
  function RequiresPythonMarker(requiresPython: string): string {
    "; python_version==\"" + Text.RemoveSpaces(requiresPython) + "\""
  }

  /** Spaces in `requires_python` never reach the marker: inserting one
      changes nothing. */
  lemma MarkerIgnoresSpaces(a: string, b: string)
    ensures RequiresPythonMarker(a + " " + b) == RequiresPythonMarker(a + b)
  {
    var spaced := a + " ";
    assert a + " " + b == spaced + b;
    Text.RemoveSpacesDistributes(spaced, b);
    Text.RemoveSpacesDistributes(a, " ");
    assert Text.RemoveSpaces(" ") == [];
    assert Text.RemoveSpaces(spaced) == Text.RemoveSpaces(a);
    Text.RemoveSpacesDistributes(a, b);
    assert Text.RemoveSpaces(a + " " + b) == Text.RemoveSpaces(a + b);
  }

  /** The collapsed line keeps the requirement text as its prefix and its
      marker depends on `requires_python` only up to spacing. */
  lemma CollapseIgnoresSpacing(requirementText: string, a: string, b: string)
    ensures |CollapseRequiresPython(requirementText, a)| > |requirementText|
    ensures CollapseRequiresPython(requirementText, a)[..|requirementText|] == requirementText
    ensures Text.RemoveSpaces(a) == Text.RemoveSpaces(b) ==>
              CollapseRequiresPython(requirementText, a) == CollapseRequiresPython(requirementText, b)
    ensures CollapseRequiresPython(requirementText, a + " " + b) == CollapseRequiresPython(requirementText, a + b)
  {
    MarkerIgnoresSpaces(a, b);
  }

  /** The text `str(ireq.req)` has after extraction: for an editable
      requirement the distribution's own requirement when the extractor
      reread it, otherwise the requirement as given. */
  function RequirementText(ireq: Requirement, ext: Extraction, env: Env): string {
    if ireq.editable && ext.refreshedRequirement.Some? then ext.refreshedRequirement.value else env.show(ireq)
  }

  /** The dependency list an extraction yields before the `requires_python`
      rule: the extractor's list followed, for an editable requirement, by
      its converted `requires.txt` lines. */
  function ExtractedList(ireq: Requirement, ext: Extraction, env: Env): seq<string> {
    if ireq.editable then SetupRequires.AppendSetupRequires(ext.dependencies, ext.setupRequires, env.wellFormed)
    else ext.dependencies
  }

  /** `get_legacy_dependencies`. */
  function LegacyDependencies(repo: Repo, env: Env, ireq: Requirement): (out: Step<set<string>>)
    ensures !(ireq.editable || IsPinned(ireq)) ==> out == Step(repo, Failure(UsageError(ireq)))
    ensures (ireq.editable || IsPinned(ireq)) && ireq in repo.dependencies ==>
              out == Step(repo, Success(ToSet(repo.dependencies[ireq])))
    ensures out.result.Success? ==>
              ireq in out.repo.dependencies && out.result.value == ToSet(out.repo.dependencies[ireq])
    ensures out.result.Failure? ==> out.repo == repo
    ensures out.repo == repo.(dependencies := out.repo.dependencies)
    ensures forall k :: k in repo.dependencies ==> k in out.repo.dependencies && out.repo.dependencies[k] == repo.dependencies[k]
    ensures forall k :: k in out.repo.dependencies ==> k in repo.dependencies || k == ireq
  {
    if !(ireq.editable || IsPinned(ireq)) then Step(repo, Failure(UsageError(ireq)))
    else if ireq in repo.dependencies then Step(repo, Success(ToSet(repo.dependencies[ireq])))
    else
      match env.extract(ireq, ChooseDownloadDir(ireq, env.pathExists))
      case None => Step(repo, Failure(ExtractionFailed(ireq)))
      case Some(ext) =>
        var listed := ExtractedList(ireq, ext, env);
        if ext.requiresPython != "" then
          var line := CollapseRequiresPython(RequirementText(ireq, ext, env), ext.requiresPython);
          if !env.wellFormed(line) then Step(repo, Failure(InvalidRequirement(line)))
          else Step(repo.(dependencies := repo.dependencies[ireq := [line]]), Success(ToSet([line])))
        else Step(repo.(dependencies := repo.dependencies[ireq := listed]), Success(ToSet(listed)))
  }

  /** On a fresh requirement the legacy path asks the extractor with the
      chosen download directory, and answers with exactly one collapsed line
      when the extractor reports a `requires_python`, or else with the
      extracted list (plus converted `requires.txt` lines when editable). */
  lemma LegacyDependenciesFresh(repo: Repo, env: Env, ireq: Requirement)
    requires ireq.editable || IsPinned(ireq)
    requires ireq !in repo.dependencies
    ensures var out := LegacyDependencies(repo, env, ireq);
            var ext := env.extract(ireq, ChooseDownloadDir(ireq, env.pathExists));
            && (ext.None? ==> out == Step(repo, Failure(ExtractionFailed(ireq))))
            && (ext.Some? && ext.value.requiresPython != "" ==>
                  var line := CollapseRequiresPython(RequirementText(ireq, ext.value, env), ext.value.requiresPython);
                  out.result.Success? <==> env.wellFormed(line)) 
            && (ext.Some? && ext.value.requiresPython != "" && out.result.Success? ==>
                  |out.result.value| == 1 &&
                  out.result.value == {CollapseRequiresPython(RequirementText(ireq, ext.value, env), ext.value.requiresPython)})
            && (ext.Some? && ext.value.requiresPython == "" ==>
                  out.result == Success(ToSet(ExtractedList(ireq, ext.value, env))))
  {
    var ext := env.extract(ireq, ChooseDownloadDir(ireq, env.pathExists));
    if ext.Some? && ext.value.requiresPython != "" {
      var line := CollapseRequiresPython(RequirementText(ireq, ext.value, env), ext.value.requiresPython);
      assert ToSet([line]) == {line};
    }
  }

  /** Memoisation: once the legacy path has answered for a requirement, it
      answers again with the same set and the same state, whatever the
      extractor would now report. */
  lemma LegacyDependenciesMemoised(repo: Repo, env: Env, later: Env, ireq: Requirement)
    requires LegacyDependencies(repo, env, ireq).result.Success?
    ensures var first := LegacyDependencies(repo, env, ireq);
            LegacyDependencies(first.repo, later, ireq) == first
  {
  }

  /** The legacy path reads and writes only the dependency cache. */
  lemma LegacyDependenciesFrame(repo: Repo, env: Env, ireq: Requirement, jsonCache: map<Requirement, seq<string>>)
    ensures var other := LegacyDependencies(repo.(jsonDependencies := jsonCache), env, ireq);
            other.result == LegacyDependencies(repo, env, ireq).result &&
            other.repo == LegacyDependencies(repo, env, ireq).repo.(jsonDependencies := jsonCache)
  {
  }

  /** `[r for r in releases if '==' + r == str(specifier)]`. */
  function ReleasesMatching(releases: seq<string>, specifierText: string): (m: seq<string>)
    ensures forall r :: r in m <==> r in releases && "==" + r == specifierText
  {
    if releases == [] then []
    else (if "==" + releases[0] == specifierText then [releases[0]] else []) + ReleasesMatching(releases[1..], specifierText)
  }

  /** The `requires_dist` entries whose markers do not mention `extra`;
      `None` when `from_line` rejects an entry (the whole lookup then
      fails). */
  function KeepNonExtra(entries: seq<string>, markerRepr: string -> Option<string>): (r: Option<seq<string>>)
    ensures r.Some? <==> forall k :: 0 <= k < |entries| ==> markerRepr(entries[k]).Some?
    ensures r.Some? ==> forall d :: d in r.value <==> d in entries && !Text.HasSubstring(markerRepr(d).value, "extra")
  {
    if entries == [] then Some([])
    else match markerRepr(entries[0])
      case None => None
      case Some(repr) =>
        match KeepNonExtra(entries[1..], markerRepr)
        case None => None
        case Some(rest) => Some((if Text.HasSubstring(repr, "extra") then [] else [entries[0]]) + rest)
  }

  /** The list the JSON generator yields for a pinned requirement, `None`
      when a request, a decoding step or `from_line` raises. Nothing is
      asked unless the default index is configured; a release is matched by
      the text `==<release>` equalling the specifier's text. */
  function JsonLookup(env: Env, indexUrls: seq<string>, ireq: Requirement): Option<seq<string>> {
    if DEFAULT_INDEX_URL !in indexUrls then Some([])
    else match env.releases(ireq.name)
      case None => None
      case Some(releases) =>
        var matches := ReleasesMatching(releases, SpecifierText(ireq.specifier));
        if matches == [] then Some([])
        else match env.requiresDist(ireq.name, matches[0])
          case None => None
          case Some(KeyMissing) => Some([])
          case Some(Declared(entries)) => KeepNonExtra(entries, env.markerRepr)
  }

  /** `get_json_dependencies`. */
  function JsonDependencies(repo: Repo, env: Env, ireq: Requirement): (out: Step<set<string>>)
    ensures !IsPinned(ireq) ==> out == Step(repo, Failure(UsageError(ireq)))
    ensures IsPinned(ireq) ==> out.result.Success?
    ensures IsPinned(ireq) && ireq in repo.jsonDependencies ==>
              out == Step(repo, Success(ToSet(repo.jsonDependencies[ireq])))
    ensures out.repo == repo.(jsonDependencies := out.repo.jsonDependencies)
    ensures forall k :: k in repo.jsonDependencies ==> k in out.repo.jsonDependencies && out.repo.jsonDependencies[k] == repo.jsonDependencies[k]
  {
    if !IsPinned(ireq) then Step(repo, Failure(UsageError(ireq)))
    else if ireq in repo.jsonDependencies then Step(repo, Success(ToSet(repo.jsonDependencies[ireq])))
    else match JsonLookup(env, repo.indexUrls, ireq)
      case None => Step(repo, Success({}))
      case Some(deps) => Step(repo.(jsonDependencies := repo.jsonDependencies[ireq := deps]), Success(ToSet(deps)))
  }

  /** The JSON path only ever reports `requires_dist` entries of a release
      whose text `==<release>` is the requirement's specifier, on a
      repository configured with the default index, and never an entry whose
      markers mention `extra`. A failed lookup answers with nothing and is
      not cached. */
  lemma JsonDependenciesMatchRule(repo: Repo, env: Env, ireq: Requirement)
    requires IsPinned(ireq)
    requires ireq !in repo.jsonDependencies
    ensures var out := JsonDependencies(repo, env, ireq);
            && (JsonLookup(env, repo.indexUrls, ireq).None? ==> out == Step(repo, Success({})))
            && (JsonLookup(env, repo.indexUrls, ireq).Some? ==>
                  ireq in out.repo.jsonDependencies && ToSet(out.repo.jsonDependencies[ireq]) == out.result.value)
            && (out.result.value != {} ==>
                  && DEFAULT_INDEX_URL in repo.indexUrls
                  && env.releases(ireq.name).Some?
                  && var matches := ReleasesMatching(env.releases(ireq.name).value, SpecifierText(ireq.specifier));
                     && matches != []
                     && "==" + matches[0] == SpecifierText(ireq.specifier)
                     && env.requiresDist(ireq.name, matches[0]).Some?
                     && env.requiresDist(ireq.name, matches[0]).value.Declared?
                     && forall d :: d in out.result.value ==>
                          && d in env.requiresDist(ireq.name, matches[0]).value.entries
                          && env.markerRepr(d).Some?
                          && !Text.HasSubstring(env.markerRepr(d).value, "extra"))
  {
    var out := JsonDependencies(repo, env, ireq);
    if out.result.value != {} && env.releases(ireq.name).Some? {
      var matches := ReleasesMatching(env.releases(ireq.name).value, SpecifierText(ireq.specifier));
      if matches != [] {
        assert matches[0] in matches;
      }
    }
  }

  /** Conversely, when PyPI is configured, a release matches the pin, it
      declares `requires_dist` and every entry parses, the JSON path reports
      exactly that release's entries whose markers do not mention `extra`,
      and caches them. */
  lemma JsonDependenciesReportsRelease(repo: Repo, env: Env, ireq: Requirement, entries: seq<string>)
    requires IsPinned(ireq)
    requires ireq !in repo.jsonDependencies
    requires DEFAULT_INDEX_URL in repo.indexUrls
    requires env.releases(ireq.name).Some?
    requires var matches := ReleasesMatching(env.releases(ireq.name).value, SpecifierText(ireq.specifier));
             matches != [] && env.requiresDist(ireq.name, matches[0]) == Some(Declared(entries))
    requires forall d :: d in entries ==> env.markerRepr(d).Some?
    ensures var out := JsonDependencies(repo, env, ireq);
            && out.result.Success?
            && (forall d :: d in out.result.value <==> d in entries && !Text.HasSubstring(env.markerRepr(d).value, "extra"))
            && ireq in out.repo.jsonDependencies
            && ToSet(out.repo.jsonDependencies[ireq]) == out.result.value
  {
    var kept := KeepNonExtra(entries, env.markerRepr);
    assert kept.Some?;
    assert JsonLookup(env, repo.indexUrls, ireq) == kept;
  }

  /** With `--no-index` the JSON path never reports anything. */
  lemma NoIndexMeansNoJson(o: Options, hashStore: map<string, string>, env: Env, ireq: Requirement)
    requires o.noIndex
    requires IsPinned(ireq)
    ensures JsonDependencies(NewRepository(o, true, hashStore), env, ireq).result == Success({})
  {
    var repo := NewRepository(o, true, hashStore);
    assert repo.indexUrls == [];
    assert JsonLookup(env, repo.indexUrls, ireq) == Some([]);
    assert ToSet([]) == {};
  }

  /** The JSON stage of `get_dependencies`: its set and the state after it;
      a `TypeError` from an unpinned requirement counts as nothing found. */
  function JsonStage(repo: Repo, env: Env, ireq: Requirement): (out: Step<set<string>>)
    ensures out.result.Success?
  {
    if !repo.useJson then Step(repo, Success({}))
    else
      var s := JsonDependencies(repo, env, ireq);
      Step(s.repo, Success(if s.result.Success? then s.result.value else {}))
  }

  /** `get_dependencies`. */
  function Dependencies(repo: Repo, env: Env, ireq: Requirement): (out: Step<set<string>>)
    ensures !(ireq.editable || IsPinned(ireq)) ==> out == Step(repo, Failure(UsageError(ireq)))
    ensures !repo.useJson ==> out == LegacyDependencies(repo, env, ireq)
  {
    var json := JsonStage(repo, env, ireq);
    var legacy := LegacyDependencies(json.repo, env, ireq);
    match legacy.result
    case Failure(e) => Step(legacy.repo, Failure(e))
    case Success(found) =>
      assert !repo.useJson ==> json.result.value + found == found;
      Step(legacy.repo, Success(json.result.value + found))
  }

  /** The union never loses what the legacy path finds and never fails where
      it succeeds: `get_dependencies` succeeds exactly when the legacy path
      does, with a superset of its answer, and adds only what the JSON path
      reported. */
  lemma DependenciesExtendLegacy(repo: Repo, env: Env, ireq: Requirement)
    ensures var out := Dependencies(repo, env, ireq);
            var legacy := LegacyDependencies(repo, env, ireq);
            && (out.result.Success? <==> legacy.result.Success?)
            && (out.result.Failure? ==> out.result.error == legacy.result.error)
            && (out.result.Success? ==>
                  legacy.result.value <= out.result.value &&
                  out.result.value - legacy.result.value <= JsonStage(repo, env, ireq).result.value)
            && (out.result.Success? ==>
                  out.result.value == JsonStage(repo, env, ireq).result.value + legacy.result.value)
  {
    var json := JsonStage(repo, env, ireq);
    LegacyDependenciesFrame(repo, env, ireq, json.repo.jsonDependencies);
    assert json.repo == repo.(jsonDependencies := json.repo.jsonDependencies);
  }
}

=== FILE: hash_cache.dfy ===
/** `HashCache`: content hashes of artifacts, persisted only for URLs whose
    fragment names a hash.

    A URL without such a fragment is not a trustworthy key (the server may
    change the file behind it), so its hash is recomputed on every request
    and never written to the store. The digest is modelled as a function of
    all the bytes fed to it, in order, as `hashlib` objects behave. */
module HashCache {
  import opened Wrappers
  import opened Types
  import Text

  /** pip's `FAVORITE_HASH`. */
  const FAVORITE_HASH := "sha256"

  /** The size of each read from the artifact stream. */
  const CHUNK_SIZE := 8096

  /** `":".join([FAVORITE_HASH, hexdigest])`. */
  function FormatHash(hexdigest: string): string {
    FAVORITE_HASH + ":" + hexdigest
  }

  /** Splits `algorithm:hexdigest` at its first colon. */
  function SplitHash(s: string): Option<(string, string)> {
    if s == [] then None
    else if s[0] == ':' then Some(("", s[1..]))
    else match SplitHash(s[1..])
      case None => None
      case Some((a, h)) => Some(([s[0]] + a, h))
  }

  /** Splitting `algorithm + ":" + rest` gives back both parts when the
      algorithm name holds no colon. */
  lemma {:induction false} SplitHashAtFirstColon(algorithm: string, rest: string)
    requires ':' !in algorithm
    ensures SplitHash(algorithm + ":" + rest) == Some((algorithm, rest))
  {
    var s := algorithm + ":" + rest;
    if algorithm == [] {
      assert s == ":" + rest;
      assert s[1..] == rest;
    } else {
      assert s[1..] == algorithm[1..] + ":" + rest;
      SplitHashAtFirstColon(algorithm[1..], rest);
      assert [algorithm[0]] + algorithm[1..] == algorithm;
    }
  }

  /** A formatted hash names the favourite algorithm and carries the digest
      unchanged, whatever characters the digest holds. */
  lemma FormatHashRoundTrip(hexdigest: string)
    ensures SplitHash(FormatHash(hexdigest)) == Some((FAVORITE_HASH, hexdigest))
  {
    SplitHashAtFirstColon(FAVORITE_HASH, hexdigest);
  }

  /** A value of the form `algorithm:hexdigest` for the favourite algorithm. */
  predicate Formatted(h: string) {
    |h| > |FAVORITE_HASH| && h[..|FAVORITE_HASH| + 1] == FAVORITE_HASH + ":"
  }

  /** Formatted values are exactly the formatted digests. */
  lemma FormattedIsFormatHash(h: string, hexdigest: string)
    ensures Formatted(FormatHash(hexdigest))
    ensures Formatted(h) ==> h == FormatHash(h[|FAVORITE_HASH| + 1..])
  {
    if Formatted(h) {
      assert h == h[..|FAVORITE_HASH| + 1] + h[|FAVORITE_HASH| + 1..];
    }
    assert FormatHash(hexdigest)[..|FAVORITE_HASH| + 1] == FAVORITE_HASH + ":";
  }

  /** Every entry of the store is a formatted hash. */
  predicate FormattedStore(store: map<string, string>) {
    forall k :: k in store ==> Formatted(store[k])
  }

  /** `fp.read(n)` on a stream positioned at `pos`. */
  function Read(content: seq<byte>, pos: nat, n: nat): (chunk: seq<byte>)
    requires pos <= |content|
    ensures |chunk| <= n && pos + |chunk| <= |content|
    ensures chunk == content[pos..pos + |chunk|]
    ensures chunk == [] <==> n == 0 || pos == |content|
  {
    if |content| - pos <= n then content[pos..] else content[pos..pos + n]
  }

  /** The chunks read, joined back together. */
  function Concat(chunks: seq<seq<byte>>): seq<byte> {
    if chunks == [] then [] else Concat(chunks[..|chunks| - 1]) + chunks[|chunks| - 1]
  }

  /** `_get_file_hash`: reads the artifact in chunks of at most
      `CHUNK_SIZE` bytes until an empty read, feeding each chunk to the
      digest, and formats the result. Returns the chunks as read. */
  method FileHash(content: seq<byte>, hexdigest: seq<byte> -> string) returns (h: string, chunks: seq<seq<byte>>)
    ensures Concat(chunks) == content
    ensures forall k :: 0 <= k < |chunks| ==> 0 < |chunks[k]| <= CHUNK_SIZE
    ensures h == FormatHash(hexdigest(content))
  {
    var fed: seq<byte> := [];
    var pos: nat := 0;
    chunks := [];
    var chunk := Read(content, pos, CHUNK_SIZE);
    while chunk != []
      invariant pos <= |content|
      invariant chunk == Read(content, pos, CHUNK_SIZE)
      invariant fed == content[..pos]
      invariant Concat(chunks) == fed
      invariant forall k :: 0 <= k < |chunks| ==> 0 < |chunks[k]| <= CHUNK_SIZE
      decreases |content| - pos
    {
      fed := fed + chunk;
      assert (chunks + [chunk])[..|chunks|] == chunks;
      chunks := chunks + [chunk];
      assert content[..pos + |chunk|] == content[..pos] + chunk;
      pos := pos + |chunk|;
      chunk := Read(content, pos, CHUNK_SIZE);
    }
    assert fed == content;
    h := FormatHash(hexdigest(fed));
  }

  /** Whether a location may be cached: its fragment carries a hash. */
  predicate CanHash(loc: Location) {
    loc.fragmentHash.Some? && loc.fragmentHash.value != ""
  }

  /** `link.url_without_fragment`: the URL the artifact is opened from. */
  function UrlWithoutFragment(loc: Location): string {
    Text.BeforeFirst(loc.url, '#')
  }

  /** The artifact is opened without its fragment: two locations that differ
      only after the `#` compute the same hash, whatever their fragments
      carry. */
  lemma ComputeIgnoresFragment(base: string, f: string, g: string, fh: Option<string>, gh: Option<string>,
                               fetch: string -> Option<seq<byte>>, hexdigest: seq<byte> -> string)
    requires '#' !in base
    ensures Compute(Location(base + "#" + f, fh), fetch, hexdigest) == Compute(Location(base + "#" + g, gh), fetch, hexdigest)
    ensures Compute(Location(base + "#" + f, fh), fetch, hexdigest) == Compute(Location(base, None), fetch, hexdigest)
  {
    Text.BeforeFirstIgnoresTail(base, '#', f);
    Text.BeforeFirstIgnoresTail(base, '#', g);
    assert base[..|base|] == base;
  }

  /** The hash a fresh computation yields, `None` if the artifact cannot be
      opened. */
  function Compute(loc: Location, fetch: string -> Option<seq<byte>>, hexdigest: seq<byte> -> string): Option<string> {
    match fetch(UrlWithoutFragment(loc))
    case None => None
    case Some(content) => Some(FormatHash(hexdigest(content)))
  }

  /** What the store offers for a location: its entry under the full URL
      when the location may be cached, and the empty (falsy) value
      otherwise. */
  function Stored(store: map<string, string>, loc: Location): string {
    if CanHash(loc) && loc.url in store then store[loc.url] else ""
  }

  /** The hash a request for `loc` must answer against `store`: a non-empty
      stored entry if there is one, otherwise a fresh computation. */
  function Resolve(store: map<string, string>, loc: Location, fetch: string -> Option<seq<byte>>, hexdigest: seq<byte> -> string): Option<string> {
    if Stored(store, loc) != "" then Some(Stored(store, loc)) else Compute(loc, fetch, hexdigest)
  }

  /** The answer to one `get_hash` call: the hash, the store afterwards, and
      whether the artifact was read. */
  datatype HashLookup = HashLookup(value: string, store: map<string, string>, fetched: bool)

  /** `get_hash`. */
  function GetHash(store: map<string, string>, loc: Location, fetch: string -> Option<seq<byte>>, hexdigest: seq<byte> -> string): (r: Result<HashLookup, Error>)
    ensures r.Success? <==> Resolve(store, loc, fetch, hexdigest).Some?
    ensures r.Success? ==> r.value.value == Resolve(store, loc, fetch, hexdigest).value
    ensures r.Failure? ==> r.error == FetchFailed(UrlWithoutFragment(loc))
    ensures r.Success? ==> (r.value.fetched <==> Stored(store, loc) == "")
    ensures r.Success? && CanHash(loc) ==> r.value.store == store[loc.url := r.value.value]
    ensures r.Success? && !CanHash(loc) ==> r.value.store == store
  {
    var cached := Stored(store, loc);
    if cached != "" then
      Success(HashLookup(cached, store[loc.url := cached], false))
    else
      match fetch(UrlWithoutFragment(loc))
      case None => Failure(FetchFailed(UrlWithoutFragment(loc)))
      case Some(content) =>
        var value := FormatHash(hexdigest(content));
        Success(HashLookup(value, if CanHash(loc) then store[loc.url := value] else store, true))
  }

  /** Asking twice for a location whose fragment carries a hash: the second
      answer is the first one, read from the store without fetching, and
      leaves the store as the first call left it. */
  lemma GetHashTwice(store: map<string, string>, loc: Location, fetch: string -> Option<seq<byte>>, hexdigest: seq<byte> -> string)
    requires CanHash(loc)
    requires GetHash(store, loc, fetch, hexdigest).Success?
    ensures var first := GetHash(store, loc, fetch, hexdigest).value;
            var second := GetHash(first.store, loc, fetch, hexdigest);
            second == Success(HashLookup(first.value, first.store, false))
  {
    var first := GetHash(store, loc, fetch, hexdigest).value;
    assert first.store[loc.url := first.value] == first.store;
  }

  /** A location without a hash fragment neither reads nor writes the
      store: every call fetches, and its answer ignores what the store
      holds. */
  lemma FragmentlessIgnoresStore(store: map<string, string>, other: map<string, string>, loc: Location, fetch: string -> Option<seq<byte>>, hexdigest: seq<byte> -> string)
    requires !CanHash(loc)
    ensures var r := GetHash(store, loc, fetch, hexdigest);
            r.Success? ==> r.value.fetched && r.value.store == store
    ensures GetHash(store, loc, fetch, hexdigest).Success? <==> GetHash(other, loc, fetch, hexdigest).Success?
    ensures GetHash(store, loc, fetch, hexdigest).Success? ==>
              GetHash(store, loc, fetch, hexdigest).value.value == GetHash(other, loc, fetch, hexdigest).value.value
  {
  }

  /** A `get_hash` call never changes what any later request resolves to:
      it only stores, under a cachable URL, the value a request for that URL
      already resolved to. */
  lemma GetHashPreservesResolution(store: map<string, string>, loc: Location, other: Location, fetch: string -> Option<seq<byte>>, hexdigest: seq<byte> -> string)
    requires GetHash(store, loc, fetch, hexdigest).Success?
    ensures Resolve(GetHash(store, loc, fetch, hexdigest).value.store, other, fetch, hexdigest) == Resolve(store, other, fetch, hexdigest)
  {
  }

  /** A store holding only formatted hashes keeps doing so, and every
      answer read from it or computed fresh is formatted. */
  lemma GetHashKeepsForm(store: map<string, string>, loc: Location, fetch: string -> Option<seq<byte>>, hexdigest: seq<byte> -> string)
    requires FormattedStore(store)
    ensures var r := GetHash(store, loc, fetch, hexdigest);
            r.Success? ==> Formatted(r.value.value) && FormattedStore(r.value.store)
  {
    var r := GetHash(store, loc, fetch, hexdigest);
    if r.Success? && Stored(store, loc) == "" {
      var content := fetch(UrlWithoutFragment(loc)).value;
      FormattedIsFormatHash("", hexdigest(content));
    }
  }
}

=== FILE: hashes.dfy ===
/** `get_hashes`: the hashes of every artifact published at the version a
    pinned requirement names. */
module Hashes {
  import opened Wrappers
  import opened Types
  import opened Repository
  import HashCache
  import Candidates

  /** Each candidate listed at most once. */
  predicate Distinct(cs: seq<Candidate>) {
    forall i, j :: 0 <= i < j < |cs| ==> cs[i] != cs[j]
  }

  /** `lookup_table(cs, key=version)[v]`: the distinct candidates listed at
      version `v`, in order of first listing. The table is a plain dict of
      sets, so a version nobody lists has no entry: an empty group stands
      for the `KeyError` its lookup raises. */
  function Group(cs: seq<Candidate>, v: string): (g: seq<Candidate>)
    ensures forall c :: c in g <==> c in cs && c.version == v
    ensures Distinct(g)
    ensures |g| <= |cs|
  {
    if cs == [] then []
    else
      var last := cs[|cs| - 1];
      var g := Group(cs[..|cs| - 1], v);
      assert forall c :: c in cs <==> c in cs[..|cs| - 1] || c == last;
      if last.version == v && last !in g then g + [last] else g
  }

  /** The hashes gathered so far and the store afterwards; `failure` is the
      error that stopped the gathering, if one did. The store keeps every
      entry written before a failure. */
  datatype Gathered = Gathered(hashes: set<string>, store: map<string, string>, failure: Option<Error>)

  /** `{get_hash(c.location) for c in group}`, one request after another
      against the evolving store. */
  function HashAll(store: map<string, string>, group: seq<Candidate>, fetch: string -> Option<seq<byte>>,
                   hexdigest: seq<byte> -> string): (r: Gathered)
    ensures r.failure.None? ==> |r.hashes| <= |group|
    ensures r.failure.Some? ==> r.failure.value.FetchFailed?
    decreases |group|
  {
    if group == [] then Gathered({}, store, None)
    else match HashCache.GetHash(store, group[0].location, fetch, hexdigest)
      case Failure(e) => Gathered({}, store, Some(e))
      case Success(h) =>
        var rest := HashAll(h.store, group[1..], fetch, hexdigest);
        if rest.failure.Some? then rest
        else Gathered({h.value} + rest.hashes, rest.store, None)
  }

  /** What each candidate of a group resolves to against a store. */
  function Resolved(store: map<string, string>, group: seq<Candidate>, fetch: string -> Option<seq<byte>>,
                    hexdigest: seq<byte> -> string): set<string>
  {
    set c | c in group && HashCache.Resolve(store, c.location, fetch, hexdigest).Some? ::
      HashCache.Resolve(store, c.location, fetch, hexdigest).value
  }

  /** A version no candidate lists has an empty group. */
  lemma {:induction false} GroupOfUnlisted(cs: seq<Candidate>, v: string)
    requires forall c :: c in cs ==> c.version != v
    ensures Group(cs, v) == []
  {
    if cs != [] {
      assert forall c :: c in cs[..|cs| - 1] ==> c in cs;
      GroupOfUnlisted(cs[..|cs| - 1], v);
    }
  }

  /** Gathering succeeds exactly when every candidate's hash can be
      resolved against the starting store, and then yields exactly those
      hashes: the order of the requests does not matter, because no request
      changes what another resolves to. */
  lemma {:induction false} HashAllResolves(store: map<string, string>, group: seq<Candidate>,
                                           fetch: string -> Option<seq<byte>>, hexdigest: seq<byte> -> string)
    ensures var r := HashAll(store, group, fetch, hexdigest);
            (r.failure.None? <==> forall c :: c in group ==> HashCache.Resolve(store, c.location, fetch, hexdigest).Some?)
    ensures var r := HashAll(store, group, fetch, hexdigest);
            r.failure.None? ==> r.hashes == Resolved(store, group, fetch, hexdigest)
    decreases |group|
  {
    if group != [] {
      var first := HashCache.GetHash(store, group[0].location, fetch, hexdigest);
      assert forall c :: c in group <==> c == group[0] || c in group[1..];
      if first.Success? {
        var h := first.value;
        HashAllResolves(h.store, group[1..], fetch, hexdigest);
        forall c | c in group[1..]
          ensures HashCache.Resolve(h.store, c.location, fetch, hexdigest) == HashCache.Resolve(store, c.location, fetch, hexdigest)
        {
          HashCache.GetHashPreservesResolution(store, group[0].location, c.location, fetch, hexdigest);
        }
        ResolvedAgree(h.store, store, group[1..], fetch, hexdigest);
        ResolvedSplit(store, group, fetch, hexdigest);
      }
    }
  }

  /** Two stores on which every candidate resolves alike resolve the group
      alike. */
  lemma ResolvedAgree(s1: map<string, string>, s2: map<string, string>, group: seq<Candidate>,
                      fetch: string -> Option<seq<byte>>, hexdigest: seq<byte> -> string)
    requires forall c :: c in group ==>
               HashCache.Resolve(s1, c.location, fetch, hexdigest) == HashCache.Resolve(s2, c.location, fetch, hexdigest)
    ensures Resolved(s1, group, fetch, hexdigest) == Resolved(s2, group, fetch, hexdigest)
  {
  }

  /** The resolved set of a group is its head's resolution joined to the
      rest's. */
  lemma ResolvedSplit(store: map<string, string>, group: seq<Candidate>,
                      fetch: string -> Option<seq<byte>>, hexdigest: seq<byte> -> string)
    requires group != []
    requires HashCache.Resolve(store, group[0].location, fetch, hexdigest).Some?
    ensures Resolved(store, group, fetch, hexdigest) ==
              {HashCache.Resolve(store, group[0].location, fetch, hexdigest).value} + Resolved(store, group[1..], fetch, hexdigest)
  {
    assert forall c :: c in group <==> c == group[0] || c in group[1..];
  }

  /** `get_hashes`. */
  function Hashes(repo: Repo, env: Env, ireq: Requirement): (out: Step<set<string>>)
    ensures ireq.editable ==> out == Step(repo, Success({}))
    ensures !ireq.editable && !IsPinned(ireq) ==> out == Step(repo, Failure(UsageError(ireq)))
    ensures out.repo.indexUrls == repo.indexUrls && out.repo.policy == repo.policy && out.repo.useJson == repo.useJson
    ensures out.repo.dependencies == repo.dependencies && out.repo.jsonDependencies == repo.jsonDependencies
  {
    if ireq.editable then Step(repo, Success({}))
    else if !IsPinned(ireq) then Step(repo, Failure(UsageError(ireq)))
    else
      var lookup := Candidates.FindAllCandidates(repo, env, ireq.name);
      match env.filter(ireq.specifier, Candidates.VersionsOf(lookup.candidates), None)
      case None => Step(lookup.repo, Failure(SpecifierFilterFailed(ireq)))
      case Some(matching) =>
        if matching == [] then Step(lookup.repo, Failure(NoMatchingVersion(ireq)))
        else
          var group := Group(lookup.candidates, matching[0]);
          if group == [] then Step(lookup.repo, Failure(VersionNotInTable(matching[0])))
          else
            var gathered := HashAll(lookup.repo.hashes, group, env.fetch, env.hexdigest);
            var after := lookup.repo.(hashes := gathered.store);
            match gathered.failure
            case Some(e) => Step(after, Failure(e))
            case None => Step(after, Success(gathered.hashes))
  }

  /** A successful `get_hashes` on a pinned requirement answers with exactly
      the hashes the candidates at the first matching version resolve to,
      one per distinct candidate at most. */
  lemma HashesOfFirstMatchingVersion(repo: Repo, env: Env, ireq: Requirement)
    requires IsPinned(ireq)
    ensures var out := Hashes(repo, env, ireq);
            var all := Candidates.FindAllCandidates(repo, env, ireq.name).candidates;
            var matching := env.filter(ireq.specifier, Candidates.VersionsOf(all), None);
            out.result.Success? ==>
              && matching.Some? && matching.value != []
              && var group := Group(all, matching.value[0]);
                 && out.result.value == Resolved(repo.hashes, group, env.fetch, env.hexdigest)
                 && |out.result.value| <= |group|
                 && (forall c :: c in group <==> c in all && c.version == matching.value[0])
  {
    var lookup := Candidates.FindAllCandidates(repo, env, ireq.name);
    var matching := env.filter(ireq.specifier, Candidates.VersionsOf(lookup.candidates), None);
    if matching.Some? && matching.value != [] {
      var group := Group(lookup.candidates, matching.value[0]);
      HashAllResolves(lookup.repo.hashes, group, env.fetch, env.hexdigest);
    }
  }

  /** The version table has no entry for a version nobody lists, so
      `get_hashes` raises `KeyError` when the filter's first answer is such a
      version. */
  lemma UnlistedVersionRaises(repo: Repo, env: Env, ireq: Requirement)
    requires IsPinned(ireq)
    ensures var out := Hashes(repo, env, ireq);
            var lookup := Candidates.FindAllCandidates(repo, env, ireq.name);
            var matching := env.filter(ireq.specifier, Candidates.VersionsOf(lookup.candidates), None);
            matching.Some? && matching.value != [] &&
            (forall c :: c in lookup.candidates ==> c.version != matching.value[0]) ==>
              out == Step(lookup.repo, Failure(VersionNotInTable(matching.value[0])))
  {
    var lookup := Candidates.FindAllCandidates(repo, env, ireq.name);
    var matching := env.filter(ireq.specifier, Candidates.VersionsOf(lookup.candidates), None);
    if matching.Some? && matching.value != [] && (forall c :: c in lookup.candidates ==> c.version != matching.value[0]) {
      GroupOfUnlisted(lookup.candidates, matching.value[0]);
    }
  }

  /** A filter that answers only versions from its input, as
      `SpecifierSet.filter` does, never makes `get_hashes` look up a version
      the table lacks. */
  lemma SubsetFilterNeverUnlisted(repo: Repo, env: Env, ireq: Requirement)
    requires IsPinned(ireq)
    requires var versions := Candidates.VersionsOf(Candidates.FindAllCandidates(repo, env, ireq.name).candidates);
             var matching := env.filter(ireq.specifier, versions, None);
             matching.Some? ==> forall v :: v in matching.value ==> v in versions
    ensures var out := Hashes(repo, env, ireq);
            !(out.result.Failure? && out.result.error.VersionNotInTable?)
  {
    var lookup := Candidates.FindAllCandidates(repo, env, ireq.name);
    var versions := Candidates.VersionsOf(lookup.candidates);
    var matching := env.filter(ireq.specifier, versions, None);
    if matching.Some? && matching.value != [] {
      var v := matching.value[0];
      assert v in versions;
      var k :| 0 <= k < |versions| && versions[k] == v;
      assert lookup.candidates[k] in Group(lookup.candidates, v);
    }
  }

  /** Gathering keeps the store formatted and yields only formatted
      hashes. */
  lemma {:induction false} HashAllKeepsForm(store: map<string, string>, group: seq<Candidate>,
                                            fetch: string -> Option<seq<byte>>, hexdigest: seq<byte> -> string)
    requires HashCache.FormattedStore(store)
    ensures var r := HashAll(store, group, fetch, hexdigest);
            HashCache.FormattedStore(r.store) && forall h :: h in r.hashes ==> HashCache.Formatted(h)
    decreases |group|
  {
    if group != [] {
      HashCache.GetHashKeepsForm(store, group[0].location, fetch, hexdigest);
      var first := HashCache.GetHash(store, group[0].location, fetch, hexdigest);
      if first.Success? {
        HashAllKeepsForm(first.value.store, group[1..], fetch, hexdigest);
      }
    }
  }

  /** Every hash `get_hashes` reports has the form `algorithm:hexdigest`,
      and the store stays formatted, provided it started so. */
  lemma HashesAreFormatted(repo: Repo, env: Env, ireq: Requirement)
    requires HashCache.FormattedStore(repo.hashes)
    ensures var out := Hashes(repo, env, ireq);
            && HashCache.FormattedStore(out.repo.hashes)
            && (out.result.Success? ==> forall h :: h in out.result.value ==> HashCache.Formatted(h))
  {
    if !ireq.editable && IsPinned(ireq) {
      var lookup := Candidates.FindAllCandidates(repo, env, ireq.name);
      match env.filter(ireq.specifier, Candidates.VersionsOf(lookup.candidates), None)
      case None =>
      case Some(matching) =>
        if matching != [] {
          var group := Group(lookup.candidates, matching[0]);
          HashAllKeepsForm(lookup.repo.hashes, group, env.fetch, env.hexdigest);
        }
    }
  }
}

=== FILE: repository.dfy ===
/** The adapter's state and its collaborators.

    `Repo` is the state a `PyPIRepository` instance accumulates: the index
    URLs it was configured with, the wheel-compatibility policy currently in
    force, and its caches. `Env` bundles everything the adapter calls but
    does not define (pip's finder, `packaging`'s specifiers, the network,
    the build machinery) as plain functions. */
module Repository {
  import opened Wrappers
  import opened Types

  /** pip's `PyPI.simple_url`. */
  const DEFAULT_INDEX_URL := "https://pypi.org/simple"

  /** How wheel compatibility is judged: by the running platform, or, inside
      `allow_all_wheels`, every wheel supported with one shared priority. */
  datatype WheelPolicy = PlatformWheels | AllWheels

  /** The pip options the constructor reads to choose index URLs. */
  datatype Options = Options(indexUrl: string, extraIndexUrls: seq<string>, noIndex: bool)

  /** The state of one adapter instance. `hashes` is the persistent hash
      store (full URL -> `algorithm:hexdigest`). */
  datatype Repo = Repo(
    indexUrls: seq<string>,
    useJson: bool,
    policy: WheelPolicy,
    candidates: map<string, seq<Candidate>>,
    dependencies: map<Requirement, seq<string>>,
    jsonDependencies: map<Requirement, seq<string>>,
    hashes: map<string, string>)

  /** The state after an operation together with what it returned or raised. */
  datatype Step<T> = Step(repo: Repo, result: Result<T, Error>)

  /** The collaborators.
      - `finder(policy, name)`: every artifact the index lists for a name.
      - `ranksBelow(policy, a, b)`: `a`'s sort key is strictly below `b`'s.
      - `pythonAccepts(spec, version)`: `SpecifierSet(spec).contains(version)`.
      - `filter(spec, versions, prereleases)`: `specifier.filter`, `None` when it raises `TypeError`.
      - `pipPythonVersion`, `interpreter`: the environment override and the running interpreter.
      - `fetch(url)`: the bytes of the artifact at a URL, `None` when it cannot be opened.
      - `hexdigest(bytes)`: the hex digest of the favourite algorithm over those bytes.
      - `releases(name)`, `requiresDist(name, version)`, `markerRepr(line)`: the PyPI JSON
        API and `repr(from_line(line).markers)`, `None` when they raise.
      - `extract(req, downloadDir)`: the metadata extractor, `None` when it raises.
      - `pathExists(path)`: `os.path.exists`.
      - `wellFormed(line)`: `InstallRequirement.from_line(line)` succeeds.
      - `show(req)`: `str(ireq.req)`. */
  datatype Env = Env(
    finder: (WheelPolicy, string) -> seq<Candidate>,
    ranksBelow: (WheelPolicy, Candidate, Candidate) -> bool,
    pythonAccepts: (string, string) -> bool,
    filter: (seq<Clause>, seq<string>, Option<bool>) -> Option<seq<string>>,
    pipPythonVersion: Option<string>,
    interpreter: Interpreter,
    fetch: string -> Option<seq<byte>>,
    hexdigest: seq<byte> -> string,
    releases: string -> Option<seq<string>>,
    requiresDist: (string, string) -> Option<RequiresDist>,
    markerRepr: string -> Option<string>,
    extract: (Requirement, DownloadDir) -> Option<Extraction>,
    pathExists: string -> bool,
    wellFormed: string -> bool,
    show: Requirement -> string)

  /** The index URLs handed to the finder: the main index followed by the
      extra ones, or none at all under `--no-index`. */
  function IndexUrls(o: Options): (urls: seq<string>)
    ensures o.noIndex ==> urls == []
    ensures !o.noIndex ==> |urls| == 1 + |o.extraIndexUrls| && urls[0] == o.indexUrl && urls[1..] == o.extraIndexUrls
  {
    if o.noIndex then [] else [o.indexUrl] + o.extraIndexUrls
  }

  /** A freshly constructed adapter: empty in-memory caches, platform wheel
      policy, and whatever the persistent hash store already holds. */
  function NewRepository(o: Options, useJson: bool, hashStore: map<string, string>): (r: Repo)
    ensures r.indexUrls == IndexUrls(o) && r.useJson == useJson && r.policy == PlatformWheels
    ensures r.candidates == map[] && r.dependencies == map[] && r.jsonDependencies == map[]
    ensures r.hashes == hashStore
  {
    Repo(IndexUrls(o), useJson, PlatformWheels, map[], map[], map[], hashStore)
  }

  /** The default index is consulted exactly when `--no-index` is off and it
      is the main or an extra index. */
  lemma DefaultIndexConfigured(o: Options)
    ensures DEFAULT_INDEX_URL in IndexUrls(o) <==>
      !o.noIndex && (o.indexUrl == DEFAULT_INDEX_URL || DEFAULT_INDEX_URL in o.extraIndexUrls)
  {
    if !o.noIndex {
      var urls := IndexUrls(o);
      assert urls == [o.indexUrl] + o.extraIndexUrls;
      if DEFAULT_INDEX_URL in urls && o.indexUrl != DEFAULT_INDEX_URL {
        var k :| 0 <= k < |urls| && urls[k] == DEFAULT_INDEX_URL;
        assert o.extraIndexUrls[k - 1] == DEFAULT_INDEX_URL;
      }
    }
  }
}

=== FILE: setup_requires.dfy ===
/** The conversion of an editable distribution's `requires.txt` sections
    into marker-qualified requirement lines.

    Each section is read line by line with a small state: the active marker
    (initially the section name itself) and whether lines are being kept
    (initially when the section name starts with `[` and holds a colon). A
    `[x:y]` line makes `x:y` the active marker and starts keeping; a `[x]`
    line without a colon stops keeping. A line without a colon that is kept
    becomes `line + marker` with every colon turned into a semicolon, unless
    `from_line` rejects it, in which case it is skipped. */
module SetupRequires {
  import opened Wrappers
  import opened Types
  import Text

  datatype ParserState = ParserState(marker: string, enabled: bool)

  /** A `[x:y]` line. */
  predicate IsMarkerHeader(v: string) {
    Text.StartsWith(v, '[') && ':' in v
  }

  /** A `[x]` line without a colon. */
  predicate IsExtraHeader(v: string) {
    Text.StartsWith(v, '[') && ':' !in v
  }

  /** `value[1:-1]` of a `[x:y]` line. */
  function Inner(v: string): string
    requires IsMarkerHeader(v)
  {
    assert v[0] != ':';
    v[1..|v| - 1]
  }

  /** The state a section starts in. */
  function Start(header: string): ParserState {
    ParserState(header, IsMarkerHeader(header))
  }

  /** The state after reading one line. */
  function Advance(st: ParserState, v: string): ParserState {
    if IsMarkerHeader(v) then ParserState(Inner(v), true)
    else if IsExtraHeader(v) then st.(enabled := false)
    else st
  }

  /** The requirement line produced for a kept value. */
  function Entry(v: string, marker: string): string {
    Text.ReplaceChar(v + marker, ':', ';')
  }

  /** What one line contributes, read in the state after it. */
  function Emit(st: ParserState, v: string, wellFormed: string -> bool): seq<string> {
    if ':' !in v && st.enabled && wellFormed(Entry(v, st.marker)) then [Entry(v, st.marker)] else []
  }

  /** The lines of one section, read from state `st`. */
  function ParseValues(st: ParserState, vs: seq<string>, wellFormed: string -> bool): seq<string>
    decreases |vs|
  {
    if vs == [] then []
    else
      var next := Advance(st, vs[0]);
      Emit(next, vs[0], wellFormed) + ParseValues(next, vs[1..], wellFormed)
  }

  /** All sections, each read from its own start state, in order. */
  function ParseSections(sections: seq<Section>, wellFormed: string -> bool): seq<string>
    decreases |sections|
  {
    if sections == [] then []
    else ParseValues(Start(sections[0].header), sections[0].values, wellFormed) + ParseSections(sections[1..], wellFormed)
  }

  /** The extractor's dependency list followed by the converted lines. */
  function AppendSetupRequires(result: seq<string>, sections: seq<Section>, wellFormed: string -> bool): (r: seq<string>)
    ensures |r| >= |result| && r[..|result|] == result
    ensures r[|result|..] == ReferenceSections(sections, wellFormed)
    ensures forall e :: e in r[|result|..] ==> ':' !in e
  {
    NoColonInOutput(sections, wellFormed);
    ParseSectionsMatchesReference(sections, wellFormed);
    assert (result + ParseSections(sections, wellFormed))[|result|..] == ParseSections(sections, wellFormed);
    result + ParseSections(sections, wellFormed)
  }

  // A declarative reading of the same rule, looking backwards from each line.

  /** The position of the last line before `i` that starts with `[`. */
  function LastBracket(vs: seq<string>, i: nat): Option<nat>
    requires i <= |vs|
    ensures var r := LastBracket(vs, i); r.Some? ==> r.value < i && Text.StartsWith(vs[r.value], '[')
  {
    if i == 0 then None
    else if Text.StartsWith(vs[i - 1], '[') then Some(i - 1)
    else LastBracket(vs, i - 1)
  }

  /** The position of the last `[x:y]` line before `i`. */
  function LastMarker(vs: seq<string>, i: nat): Option<nat>
    requires i <= |vs|
    ensures var r := LastMarker(vs, i); r.Some? ==> r.value < i && IsMarkerHeader(vs[r.value])
  {
    if i == 0 then None
    else if IsMarkerHeader(vs[i - 1]) then Some(i - 1)
    else LastMarker(vs, i - 1)
  }

  /** The state in force after the first `i` lines: the marker of the
      nearest `[x:y]` line, else the section name; kept when the nearest
      bracketed line is a `[x:y]` line, or, with no bracketed line yet,
      when the section name is one. */
  function StateAfter(header: string, vs: seq<string>, i: nat): ParserState
    requires i <= |vs|
  {
    var marker := match LastMarker(vs, i) case Some(j) => Inner(vs[j]) case None => header;
    var enabled := match LastBracket(vs, i) case Some(j) => ':' in vs[j] case None => IsMarkerHeader(header);
    ParserState(marker, enabled)
  }

  /** The lines from position `k` on, each judged by the state after it. */
  function ReferenceFrom(header: string, vs: seq<string>, k: nat, wellFormed: string -> bool): seq<string>
    requires k <= |vs|
    decreases |vs| - k
  {
    if k == |vs| then []
    else Emit(StateAfter(header, vs, k + 1), vs[k], wellFormed) + ReferenceFrom(header, vs, k + 1, wellFormed)
  }

  lemma AdvanceMatchesStateAfter(header: string, vs: seq<string>, k: nat)
    requires k < |vs|
    ensures Advance(StateAfter(header, vs, k), vs[k]) == StateAfter(header, vs, k + 1)
  {
  }

  lemma {:induction false} ParseValuesFrom(header: string, vs: seq<string>, k: nat, wellFormed: string -> bool)
    requires k <= |vs|
    ensures ParseValues(StateAfter(header, vs, k), vs[k..], wellFormed) == ReferenceFrom(header, vs, k, wellFormed)
    decreases |vs| - k
  {
    if k < |vs| {
      AdvanceMatchesStateAfter(header, vs, k);
      assert vs[k..][1..] == vs[k + 1..];
      ParseValuesFrom(header, vs, k + 1, wellFormed);
    }
  }

  /** The line-by-line reading of a section agrees with the declarative
      one: each line is judged by the nearest preceding headers. */
  lemma ParseSectionMatchesReference(s: Section, wellFormed: string -> bool)
    ensures ParseValues(Start(s.header), s.values, wellFormed) == ReferenceFrom(s.header, s.values, 0, wellFormed)
  {
    assert StateAfter(s.header, s.values, 0) == Start(s.header);
    assert s.values[0..] == s.values;
    ParseValuesFrom(s.header, s.values, 0, wellFormed);
  }

  /** The declarative reading of every section, each on its own, in order. */
  function ReferenceSections(sections: seq<Section>, wellFormed: string -> bool): seq<string>
    decreases |sections|
  {
    if sections == [] then []
    else ReferenceFrom(sections[0].header, sections[0].values, 0, wellFormed) + ReferenceSections(sections[1..], wellFormed)
  }

  /** The stateful reading of all sections agrees with the declarative one. */
  lemma {:induction false} ParseSectionsMatchesReference(sections: seq<Section>, wellFormed: string -> bool)
    ensures ParseSections(sections, wellFormed) == ReferenceSections(sections, wellFormed)
    decreases |sections|
  {
    if sections != [] {
      ParseSectionMatchesReference(sections[0], wellFormed);
      ParseSectionsMatchesReference(sections[1..], wellFormed);
    }
  }

  /** What a single line yields, by the declarative reading: nothing for a
      line with a colon or a bracketed line; otherwise the line qualified by
      the nearest marker when it is kept and well formed. */
  lemma ReferenceLine(header: string, vs: seq<string>, k: nat, wellFormed: string -> bool)
    requires k < |vs|
    ensures var st := StateAfter(header, vs, k + 1);
            var out := Emit(st, vs[k], wellFormed);
            && (':' in vs[k] || Text.StartsWith(vs[k], '[') ==> out == [])
            && (':' !in vs[k] && !Text.StartsWith(vs[k], '[') ==>
                  st == StateAfter(header, vs, k) &&
                  (out != [] <==> st.enabled && wellFormed(Entry(vs[k], st.marker))))
  {
  }

  /** The state resets per section: reading sections one after another is
      reading each on its own. */
  lemma {:induction false} SectionsReadIndependently(a: seq<Section>, b: seq<Section>, wellFormed: string -> bool)
    ensures ParseSections(a + b, wellFormed) == ParseSections(a, wellFormed) + ParseSections(b, wellFormed)
  {
    if a == [] {
      assert a + b == b;
    } else {
      assert (a + b)[0] == a[0];
      assert (a + b)[1..] == a[1..] + b;
      SectionsReadIndependently(a[1..], b, wellFormed);
    }
  }

  lemma {:induction false} NoColonInValues(st: ParserState, vs: seq<string>, wellFormed: string -> bool)
    ensures forall e :: e in ParseValues(st, vs, wellFormed) ==> ':' !in e
    decreases |vs|
  {
    if vs != [] {
      NoColonInValues(Advance(st, vs[0]), vs[1..], wellFormed);
    }
  }

  /** No converted line contains a colon. */
  lemma {:induction false} NoColonInOutput(sections: seq<Section>, wellFormed: string -> bool)
    ensures forall e :: e in ParseSections(sections, wellFormed) ==> ':' !in e
    decreases |sections|
  {
    if sections != [] {
      NoColonInValues(Start(sections[0].header), sections[0].values, wellFormed);
      NoColonInOutput(sections[1..], wellFormed);
    }
  }
}

=== FILE: target_python.dfy ===
/** The interpreter version that best-match selection tests each
    candidate's `requires_python` against: the `PIP_PYTHON_VERSION`
    environment value when it is set, otherwise the running interpreter's
    version triple written as a version string.

    The source writes the fallback as `str(sys.version_info[:3])`, which is
    the tuple's display `(3, 6, 5)` rather than the version `3.6.5`; both
    forms are modelled here, and the selection uses the dotted one. */
module TargetPython {
  import opened Wrappers
  import opened Types

  predicate IsDigit(c: char) {
    '0' <= c <= '9'
  }

  predicate IsDigits(s: string) {
    |s| > 0 && forall i :: 0 <= i < |s| ==> IsDigit(s[i])
  }

  function DigitChar(d: nat): (c: char)
    requires d < 10
    ensures IsDigit(c)
  {
    (48 + d) as char
  }

  function DigitValue(c: char): (d: nat)
    requires IsDigit(c)
    ensures d < 10
  {
    c as int - 48
  }

  /** `str(n)` for a natural number: its decimal digits. */
  function Digits(n: nat): (s: string)
    ensures IsDigits(s)
    decreases n
  {
    if n < 10 then [DigitChar(n)] else Digits(n / 10) + [DigitChar(n % 10)]
  }

  /** `int(s)` for a string of decimal digits. */
  function ValueOf(s: string): nat
    requires forall i :: 0 <= i < |s| ==> IsDigit(s[i])
  {
    if s == [] then 0 else ValueOf(s[..|s| - 1]) * 10 + DigitValue(s[|s| - 1])
  }

  /** Reading back the digits of `n` gives `n`. */
  lemma {:induction false} DigitsRoundTrip(n: nat)
    ensures ValueOf(Digits(n)) == n
    decreases n
  {
    if n >= 10 {
      var prefix := Digits(n / 10);
      var s := prefix + [DigitChar(n % 10)];
      assert s[..|s| - 1] == prefix;
      DigitsRoundTrip(n / 10);
    }
  }

  /** `s.split('.')`. */
  function SplitDots(s: string): (parts: seq<string>)
    ensures |parts| > 0
  {
    if s == [] then [""]
    else
      var rest := SplitDots(s[1..]);
      if s[0] == '.' then [""] + rest else [[s[0]] + rest[0]] + rest[1..]
  }

  lemma {:induction false} SplitDotsOfPlain(s: string)
    requires '.' !in s
    ensures SplitDots(s) == [s]
  {
    if s != [] {
      assert s[0] != '.';
      SplitDotsOfPlain(s[1..]);
      assert [s[0]] + s[1..] == s;
    }
  }

  lemma {:induction false} SplitDotsAtDot(a: string, b: string)
    ensures SplitDots(a + "." + b) == SplitDots(a) + SplitDots(b)
  {
    if a == [] {
      assert a + "." + b == "." + b;
      assert ("." + b)[1..] == b;
    } else {
      assert (a + "." + b)[1..] == a[1..] + "." + b;
      SplitDotsAtDot(a[1..], b);
    }
  }

  function ValuesOf(parts: seq<string>): seq<nat>
    requires forall k :: 0 <= k < |parts| ==> IsDigits(parts[k])
  {
    if parts == [] then []
    else
      assert IsDigits(parts[0]);
      [ValueOf(parts[0])] + ValuesOf(parts[1..])
  }

  /** The release segment `N(.N)*` of a PEP 440 version, read as numbers;
      `None` when the string is not of that form. */
  function ParseRelease(s: string): Option<seq<nat>> {
    var parts := SplitDots(s);
    if forall k :: 0 <= k < |parts| ==> IsDigits(parts[k]) then Some(ValuesOf(parts)) else None
  }

  /** Every PEP 440 version, after optional leading white space and an
      optional `v`, begins with a digit. */
  predicate CanStartPep440(s: string) {
    var t := StripLeadingSpaces(s);
    |t| > 0 && (IsDigit(t[0]) || ((t[0] == 'v' || t[0] == 'V') && |t| > 1 && IsDigit(t[1])))
  }

  function StripLeadingSpaces(s: string): (t: string)
    ensures |t| <= |s| && t == s[|s| - |t|..]
    ensures |t| > 0 ==> t[0] != ' '
  {
    if s != [] && s[0] == ' ' then StripLeadingSpaces(s[1..]) else s
  }

  /** The fallback as the source writes it, `str(sys.version_info[:3])`:
      the display of a Python tuple. */
  function DefaultTargetAsWritten(i: Interpreter): string {
    "(" + Digits(i.major) + ", " + Digits(i.minor) + ", " + Digits(i.micro) + ")"
  }

  /** The fallback the selection needs: the triple as a dotted version. */
  function DefaultTarget(i: Interpreter): string {
    Digits(i.major) + "." + Digits(i.minor) + "." + Digits(i.micro)
  }

  /** `PIP_PYTHON_VERSION` when set (even to an empty value), otherwise the
      running interpreter's dotted version. */
  function TargetVersion(pipPythonVersion: Option<string>, running: Interpreter): (v: string)
    ensures pipPythonVersion.Some? ==> v == pipPythonVersion.value
    ensures pipPythonVersion.None? ==> ParseRelease(v) == Some([running.major, running.minor, running.micro])
  {
    match pipPythonVersion
    case Some(v) => v
    case None =>
      DefaultTargetRoundTrip(running);
      DefaultTarget(running)
  }

  /** The as-written fallback is never a version: it starts with `(`, so it
      is neither a release segment nor the start of any PEP 440 version. */
  lemma AsWrittenIsNotAVersion(i: Interpreter)
    ensures ParseRelease(DefaultTargetAsWritten(i)).None?
    ensures !CanStartPep440(DefaultTargetAsWritten(i))
  {
    var s := DefaultTargetAsWritten(i);
    assert s[0] == '(';
    var parts := SplitDots(s);
    assert parts[0][0] == '(';
    assert !IsDigits(parts[0]);
    assert StripLeadingSpaces(s) == s;
  }

  /** For Python 3.6.5 the as-written fallback is the text `(3, 6, 5)`. */
  lemma AsWrittenExample()
    ensures DefaultTargetAsWritten(Interpreter(3, 6, 5)) == "(3, 6, 5)"
  {
  }

  /** The dotted fallback reads back as exactly the interpreter's triple. */
  lemma DefaultTargetRoundTrip(i: Interpreter)
    ensures ParseRelease(DefaultTarget(i)) == Some([i.major, i.minor, i.micro])
  {
    var a, b, c := Digits(i.major), Digits(i.minor), Digits(i.micro);
    assert '.' !in a && '.' !in b && '.' !in c by {
      assert forall k :: 0 <= k < |a| ==> IsDigit(a[k]);
      assert forall k :: 0 <= k < |b| ==> IsDigit(b[k]);
      assert forall k :: 0 <= k < |c| ==> IsDigit(c[k]);
    }
    SplitDotsAtDot(a + "." + b, c);
    SplitDotsAtDot(a, b);
    SplitDotsOfPlain(a);
    SplitDotsOfPlain(b);
    SplitDotsOfPlain(c);
    assert SplitDots(DefaultTarget(i)) == [a, b, c];
    DigitsRoundTrip(i.major);
    DigitsRoundTrip(i.minor);
    DigitsRoundTrip(i.micro);
    assert [a, b, c][1..] == [b, c];
    assert [b, c][1..] == [c];
    assert ValuesOf([c]) == [i.micro];
    assert ValuesOf([b, c]) == [i.minor, i.micro];
    assert ValuesOf([a, b, c]) == [i.major, i.minor, i.micro];
  }
}

=== FILE: text.dfy ===
/** The few string operations the repository layer performs with Python's
    `str` methods: `startswith`, `in`, `replace`, and cutting a URL at its
    fragment. Strings are sequences of characters; no encoding or
    normalisation is involved. */
module Text {

  /** `s.startswith(c)` for a one-character prefix. */
  predicate StartsWith(s: string, c: char) {
    |s| > 0 && s[0] == c
  }

  /** `t in s` for two strings: `t` occurs in `s` as a contiguous block. */
  predicate HasSubstring(s: string, t: string)
    decreases |s|
  {
    (|t| <= |s| && s[..|t|] == t) || (|s| > 0 && HasSubstring(s[1..], t))
  }

  /** `s.replace(target, replacement)` for single characters. */
  function ReplaceChar(s: string, target: char, replacement: char): (r: string)
    ensures |r| == |s|
    ensures forall i :: 0 <= i < |s| ==> r[i] == (if s[i] == target then replacement else s[i])
    ensures target != replacement ==> target !in r
  {
    if s == [] then []
    else [if s[0] == target then replacement else s[0]] + ReplaceChar(s[1..], target, replacement)
  }

  /** `s.replace(' ', '')`. */
  function RemoveSpaces(s: string): (r: string)
    ensures ' ' !in r
    ensures |r| <= |s|
  {
    if s == [] then [] else (if s[0] == ' ' then [] else [s[0]]) + RemoveSpaces(s[1..])
  }

  /** Removing spaces works piecewise: it commutes with concatenation. */
  lemma {:induction false} RemoveSpacesDistributes(a: string, b: string)
    ensures RemoveSpaces(a + b) == RemoveSpaces(a) + RemoveSpaces(b)
  {
    if a == [] {
      assert a + b == b;
    } else {
      assert (a + b)[1..] == a[1..] + b;
      RemoveSpacesDistributes(a[1..], b);
    }
  }

  /** The part of `s` before the first `c`, all of `s` when it holds no
      `c` (`s.split(c, 1)[0]`). */
  function BeforeFirst(s: string, c: char): (r: string)
    ensures |r| <= |s| && r == s[..|r|]
    ensures c !in r
    ensures |r| < |s| <==> c in s
    ensures |r| < |s| ==> s[|r|] == c
  {
    if s == [] || s[0] == c then [] else [s[0]] + BeforeFirst(s[1..], c)
  }

  /** Whatever follows the first `c` does not matter. */
  lemma {:induction false} BeforeFirstIgnoresTail(s: string, c: char, tail: string)
    requires c !in s
    ensures BeforeFirst(s + [c] + tail, c) == s
  {
    if s != [] {
      assert (s + [c] + tail)[1..] == s[1..] + [c] + tail;
      BeforeFirstIgnoresTail(s[1..], c, tail);
    } else {
      assert s + [c] + tail == [c] + tail;
    }
  }
}

=== FILE: types.dfy ===
/** The entities the repository adapter works with: artifact locations,
    index candidates, requirements, the extractor's report, and the errors
    the adapter raises. */
module Types {
  import opened Wrappers

  /** One byte of an artifact's content. */
  newtype byte = x: int | 0 <= x < 256

  /** The running interpreter's version triple (`sys.version_info[:3]`). */
  datatype Interpreter = Interpreter(major: nat, minor: nat, micro: nat)

  /** pip's `Link` as far as hashing is concerned: the full URL, fragment
      included, and the hash value the fragment carries, if any
      (`location.hash`). */
  datatype Location = Location(url: string, fragmentHash: Option<string>)

  /** One published artifact as the index reports it. `requiresPython` is
      the artifact's declared `requires_python`, empty when it declares none. */
  datatype Candidate = Candidate(
    project: string,
    version: string,
    location: Location,
    requiresPython: string)

  /** One clause of a version specifier, such as `==` and `1.0`. */
  datatype Clause = Clause(op: string, version: string)

  /** The link an install requirement was given; `isArtifact` is false for
      a version-control source. */
  datatype Link = Link(url: string, isArtifact: bool)

  /** pip's `InstallRequirement` reduced to the fields the adapter reads.
      `sourceDir` is empty when the requirement has no source directory. */
  datatype Requirement = Requirement(
    name: string,
    specifier: seq<Clause>,
    extras: set<string>,
    markers: Option<string>,
    editable: bool,
    constraint: bool,
    link: Option<Link>,
    sourceDir: string)

  /** A requirement is pinned when it is not editable and its specifier is
      exactly one `==` or `===` clause on a version without a `.*` wildcard
      (the rule of piptools' `is_pinned_requirement`). */
  predicate IsPinned(r: Requirement) {
    && !r.editable
    && |r.specifier| == 1
    && (r.specifier[0].op == "==" || r.specifier[0].op == "===")
    && !(|r.specifier[0].version| >= 2 && r.specifier[0].version[|r.specifier[0].version| - 2..] == ".*")
  }

  /** `str(specifier)`: the clauses written operator-first, joined by commas.
      `packaging` sorts the clauses first; here they keep the given order,
      which agrees for the single-clause (pinned) specifiers the adapter
      renders. */
  function SpecifierText(specs: seq<Clause>): string {
    if specs == [] then ""
    else if |specs| == 1 then specs[0].op + specs[0].version
    else specs[0].op + specs[0].version + "," + SpecifierText(specs[1..])
  }

  /** The fresh pinned requirement `make_install_requirement` builds for a
      winning candidate, carrying over the original's extras, markers and
      constraint flag. */
  function PinnedFrom(winner: Candidate, original: Requirement): Requirement {
    Requirement(
      winner.project,
      [Clause("==", winner.version)],
      original.extras,
      original.markers,
      false,
      original.constraint,
      None,
      "")
  }

  /** One section of an editable distribution's `requires.txt` as pip's
      finder groups it: the section name and the lines beneath it. */
  datatype Section = Section(header: string, values: seq<string>)

  /** Where the extractor may download archives: nowhere, or the shared
      download directory of the cache root. */
  datatype DownloadDir = NoDownloadDir | SharedDownloadDir

  /** What the artifact metadata extractor reports after materialising a
      requirement: its direct dependencies (requirement strings), the
      whole-package `requires_python` (empty when none), and, for editable
      requirements, the `requires.txt` sections and the refreshed
      requirement text read back from the built distribution. */
  datatype Extraction = Extraction(
    dependencies: seq<string>,
    requiresPython: string,
    setupRequires: seq<Section>,
    refreshedRequirement: Option<string>)

  /** The `requires_dist` entry of a release's JSON metadata: absent
      (a `KeyError`), or a list of requirement strings. */
  datatype RequiresDist = KeyMissing | Declared(entries: seq<string>)

  /** The errors the adapter raises. */
  datatype Error =
    | UsageError(req: Requirement)                                   // TypeError: not pinned (or editable)
    | NoCandidateFound(req: Requirement, candidates: seq<Candidate>)
    | SpecifierFilterFailed(req: Requirement)                        // TypeError from specifier.filter
    | NoMatchingVersion(req: Requirement)                            // IndexError on matching_versions[0]
    | VersionNotInTable(version: string)                             // KeyError on the version table
    | FetchFailed(url: string)                                       // the artifact could not be opened
    | ExtractionFailed(req: Requirement)                             // the extractor raised
    | InvalidRequirement(line: string)                               // from_line rejected a line

  /** `set(s)`. */
  function ToSet(s: seq<string>): (r: set<string>)
    ensures forall x :: x in r <==> x in s
  {
    set x | x in s
  }
}

=== FILE: wheel_override.dfy ===
/** `allow_all_wheels`: a scope in which every wheel counts as installable,
    with one shared sort priority, and the candidate cache starts empty.
    Leaving the scope, however the body ends, puts back the wheel policy
    and the candidate cache that were in force before; everything else the
    body did (dependency caches, hash store) stays. */
module WheelOverride {
  import opened Types
  import opened Repository
  import Candidates
  import Hashes

  /** The state the body runs in. */
  function Enter(repo: Repo): (inside: Repo)
    ensures inside.policy == AllWheels && inside.candidates == map[]
    ensures inside.(policy := repo.policy, candidates := repo.candidates) == repo
  {
    repo.(policy := AllWheels, candidates := map[])
  }

  /** Runs `body` inside the scope. */
  function AllowAllWheels<T>(repo: Repo, body: Repo -> Step<T>): (out: Step<T>)
    ensures out.repo.policy == repo.policy && out.repo.candidates == repo.candidates
    ensures out.result == body(Enter(repo)).result
    ensures out.repo == body(Enter(repo)).repo.(policy := repo.policy, candidates := repo.candidates)
  {
    var inside := body(Enter(repo));
    Step(inside.repo.(policy := repo.policy, candidates := repo.candidates), inside.result)
  }

  /** Hash auditing inside the scope sees the artifacts the finder lists for
      every platform, not the cached platform-filtered list, and leaves the
      caller's candidate cache and policy as they were. */
  lemma HashesUnderOverride(repo: Repo, env: Env, ireq: Requirement)
    requires IsPinned(ireq)
    ensures var inside := Enter(repo);
            var lookup := Candidates.FindAllCandidates(inside, env, ireq.name);
            lookup.queried && lookup.candidates == env.finder(AllWheels, ireq.name)
    ensures var out := AllowAllWheels(repo, (r: Repo) => Hashes.Hashes(r, env, ireq));
            out.repo.candidates == repo.candidates && out.repo.policy == repo.policy &&
            out.result == Hashes.Hashes(Enter(repo), env, ireq).result
  {
  }

  /** Scopes nest: leaving an inner scope returns to the outer scope's
      state, and leaving the outer one returns to the original. */
  lemma NestedScopesRestore<T>(repo: Repo, body: Repo -> Step<T>)
    ensures var out := AllowAllWheels(repo, (r: Repo) => AllowAllWheels(r, body));
            out.repo.policy == repo.policy && out.repo.candidates == repo.candidates &&
            out.result == body(Enter(Enter(repo))).result
  {
  }
}

=== FILE: wrappers.dfy ===
/** Failure-carrying datatypes used throughout the model in place of Python's
    `None` and exceptions. */
module Wrappers {

  /** A value that may be absent (Python's `None`). */
  datatype Option<+T> = None | Some(value: T)

  /** The outcome of an operation that either returns a value or raises. */
  datatype Result<+T, +E> = Success(value: T) | Failure(error: E)
}
